=== FILE: README.md ===
# Memory utilities and CUtlBuffer of a CS2 internal module, in Dafny

This project models two parts of a Windows game module.

The first part is the memory utilities of `MEM`. It covers three things:

- the signature scanner;
- the export resolver and the section lookup of a loaded PE image;
- the loader-list lookups.

The signature scanner works on text patterns such as `"48 8B ? 05"`. `PatternToBytes` compiles such a pattern into a byte buffer and a mask of `'x'` and `'?'` characters. `BytesToPattern` turns bytes back into text. `FindPatternEx` returns the first hit of its skip-forward scan over a region. `FindPatternAllOccurrencesEx` returns every hit of that scan. The scan can miss matches (see below). `FindPattern` puts these together for a whole module that it looks up by name.

`GetExportAddress` binary-searches the export name table. `GetSectionInfo` finds a section by its 8-character name. `GetModuleBaseHandle` and `GetModuleBaseFileName` walk the loader's circular module list.

The second part is the cursor, flag and tab state of the `CUtlBuffer` class:

- binary puts and gets of integers;
- tab pretty-printing;
- the flag predicates;
- `Clear` and `Purge`.

Files:

- `types.dfy`: bytes, addresses, C strings.
- `crt.dfy`: the string and hex helpers the core calls.
- `pattern_compiler.dfy`: `PatternToBytes` and `BytesToPattern`.
- `pattern_scanner.dfy`: the two region scanners.
- `pe_image.dfy`: the export and section lookups.
- `module_list.dfy`: the loader list.
- `memory.dfy`: the module-level `FindPattern`.
- `utl_buffer.dfy`: `CUtlBuffer`.

The process is a value:

- the loader list becomes a sequence of entries, in which the list head is link `|entries|`;
- each image becomes its parsed headers and its bytes;
- an address is a natural number, and 0 means null.

The scanners and the compiler are loops over arrays and sequences, proved against recursive specification functions: `Compile`, `HexText`, `SkipHits`, `FindNamed`, `FindAtBase` and `FindSection`. `CUtlBuffer` is a class whose methods update its fields.

Where the code's own comments and checks state an intent that the code does not meet, the model follows the code and proves the gap:

- **The scan is not a plain leftmost search.** Both scanners check the first byte before the inner loop, and their comment (memory.cpp:367) says this is there so that the search does not skip a match and fail. The skip rule still jumps over a match (`SkipRuleMissesMatch`). `FindPatternAllOccurrencesEx` reports the hits of the same skip rule.
- **The last window is never tried.** The loop runs while the cursor is below `size - count`, so a pattern as long as the whole region never matches at offset 0 (`LastWindowMissed`).
- **A lone trailing wildcard overruns.** The paranoid check after a `?` (memory.cpp:440) lists the terminator among the characters it expects next, so a pattern such as `"DE ? BE ?"` is meant to be valid. The code still steps over that terminator (`TrailingWildcardExample`). The corrected compiler `PatternToBytesChecked` emits the wildcard and stops, and rejects every token those checks refuse.
- **The text form's buffers are one byte short.** `"? ?"` is two wildcards, which need three bytes with the terminator. The callers allocate `strlen / 2 + 1 = 2` (`IntendedExamples`).

## Model

| member | source | states |
|---|---|---|
| Types.CStringLength | cs2-internal/utilities/memory.cpp:433 | the pattern loop stops on the terminator exactly at the string's end |
| Crt.StringCompare | cs2-internal/utilities/memory.cpp:110 | the comparison is -1, 0 or 1, and is 0 exactly when the two names are equal |
| Crt.StringCompareAntisymmetric | cs2-internal/utilities/memory.cpp:182-203 | swapping the arguments negates the comparison, which the binary search's two branches rely on |
| Crt.StringLess | cs2-internal/utilities/memory.cpp:200-203 | the order the binary search steers by: a name sorts before another when the comparison is negative (a definition) |
| Crt.StringLessTransitive | cs2-internal/utilities/memory.cpp:176-204 | the order of names is transitive, so one comparison rules out a whole half of the table |
| Crt.EqualUpTo | cs2-internal/utilities/memory.cpp:230 | the strncmp-style bounded comparison (a definition; its meaning is stated by `EqualUpToMeaning`) |
| Crt.EqualUpToMeaning | cs2-internal/utilities/memory.cpp:230 | a bounded comparison succeeds exactly when the first min(n, length + 1) characters agree, the terminator included |
| Crt.CharToHexInt | cs2-internal/utilities/memory.cpp:451-458 | a digit's value is below 16, and only a hex digit has a non-zero value |
| Crt.HexDigitRoundTrip | cs2-internal/utilities/memory.cpp:481-483 | reading a digit of the hex table gives back its index; no digit is a space, '?' or a terminator |
| Crt.TwoDigitHex | cs2-internal/utilities/memory.cpp:481-483 | each byte is written as exactly two hex digits, high nibble first |
| PatternCompiler.WellTerminated | cs2-internal/utilities/memory.cpp:433-464 | the parse of `PatternToBytes` from this position stops on the terminator: no token starts on the last character (a definition) |
| PatternCompiler.TokenByte | cs2-internal/utilities/memory.cpp:436-458 | the byte of a token: 0 for a wildcard, otherwise the high digit times 16 plus the low digit (a definition) |
| PatternCompiler.EmittedCount | cs2-internal/utilities/memory.cpp:433-464 | the number of tokens the loop writes before it reaches or steps over the terminator, a token on the last character included (a definition; `EmittedCountIsCompiledLength` and `LoneWildcardOverrun` state its properties) |
| PatternCompiler.Compile | cs2-internal/utilities/memory.cpp:433-464 | the compiled bytes and mask have equal length, and at most one token is emitted per two characters |
| PatternCompiler.MaskChar | cs2-internal/utilities/memory.cpp:436-461 | the mask character of a token: '?' for a wildcard, 'x' for a hex pair (a definition) |
| PatternCompiler.CompiledShape | cs2-internal/utilities/memory.cpp:436-461 | the mask holds only 'x' and '?', and every wildcard position holds byte 0 |
| PatternCompiler.CompileStep | cs2-internal/utilities/memory.cpp:433-464 | a space emits nothing; any other character emits the next compiled token and consumes two characters; a token on the last character leaves the pattern unterminated |
| PatternCompiler.EmittedCountIsCompiledLength | cs2-internal/utilities/memory.cpp:433-464 | on a pattern that stops on its terminator, the number of tokens written is the compiled length |
| PatternCompiler.StackBufferFits | cs2-internal/utilities/memory.cpp:261-264 | the tokens plus the terminator fit in the callers' `strlen / 2 + 1` byte stack buffers |
| PatternCompiler.PatternToBytes | cs2-internal/utilities/memory.cpp:429-471 | writes exactly the compiled bytes and mask, terminates both, returns the token count and leaves the rest of the buffers untouched |
| PatternCompiler.HexText | cs2-internal/utilities/memory.cpp:474-489 | the text is three characters per byte less one, with no terminator inside |
| PatternCompiler.Spaced | cs2-internal/utilities/memory.cpp:478-485 | what the loop writes so far is three characters per byte |
| PatternCompiler.SpacedAt | cs2-internal/utilities/memory.cpp:480-484 | the i-th group of three characters is the i-th byte's two digits and a space |
| PatternCompiler.SpacedIsHexText | cs2-internal/utilities/memory.cpp:486-488 | overwriting the last space with the terminator leaves exactly the hex text |
| PatternCompiler.BytesToPattern | cs2-internal/utilities/memory.cpp:474-489 | writes the hex text and its terminator, returns length 3n - 1, and touches nothing beyond |
| PatternCompiler.TwoDigitHexRoundTrip | cs2-internal/utilities/memory.cpp:451-483 | the two digits written for a byte compile back to that byte |
| PatternCompiler.CompileHexText | cs2-internal/utilities/memory.cpp:433-489 | the text of any bytes compiles back to those bytes with an all-'x' mask, wherever it starts, and passes the paranoid checks |
| PatternCompiler.PatternRoundTrip | cs2-internal/utilities/memory.cpp:429-489 | round trip: compiling the text `BytesToPattern` writes gives the original bytes, all to be matched exactly, with the original and with the corrected parse |
| PatternCompiler.LoneWildcardOverrun | cs2-internal/utilities/memory.cpp:436-464 | "? ?" makes the parser step over its terminator and needs more than the callers' buffer |
| PatternCompiler.FourByteExample | cs2-internal/utilities/memory.cpp:433-464 | "DE AD BE EF" compiles to DE AD BE EF with mask "xxxx" |
| PatternCompiler.TrailingWildcardExample | cs2-internal/utilities/memory.cpp:436-464 | "DE ? BE ?" overruns; "DE ? BE ??" stops on its terminator and compiles to DE 00 BE 00 with mask "x?x?" |
| PatternCompiler.TokenFollows | cs2-internal/utilities/memory.cpp:436-458 | the paranoid checks on the character after a token: after a '?' only the terminator, a space or a '?'; after a hex digit none of these (a definition) |
| PatternCompiler.IntendedParse | cs2-internal/utilities/memory.cpp:433-464 | the parse the paranoid checks describe: every token the checks refuse rejects the pattern, and a final lone '?' is a wildcard; equal-length bytes and mask, at most one token per two characters plus that final wildcard |
| PatternCompiler.IntendedAgreesWhenTerminated | cs2-internal/utilities/memory.cpp:433-464 | on a pattern that stops on its terminator and passes the checks, the intended parse gives what `PatternToBytes` writes |
| PatternCompiler.IntendedBufferFits | cs2-internal/utilities/memory.cpp:261-264 | an intended parse and its terminator fit in `(strlen + 1) / 2 + 1` bytes |
| PatternCompiler.IntendedExamples | cs2-internal/utilities/memory.cpp:436-464 | "DE ? BE ?" gives DE 00 BE 00 with mask "x?x?"; "? ?" gives two wildcards, one byte more than `strlen / 2 + 1` holds; "DE A", "D EF", "?A" and "D?E" are rejected |
| PatternCompiler.IntendedStep | cs2-internal/utilities/memory.cpp:436-464 | one token of the intended parse: a space emits nothing; a lone final '?' emits a wildcard and ends; a token the checks refuse rejects; any other token emits its byte and consumes two characters |
| PatternCompiler.ReadToken | cs2-internal/utilities/memory.cpp:436-461 | one token of the corrected compiler: none exactly when the checks refuse it; otherwise its byte and mask character, taking one character before the terminator and two elsewhere |
| PatternCompiler.PatternToBytesChecked | cs2-internal/utilities/memory.cpp:429-471 | corrected compiler: rejects exactly what the intended parse rejects; otherwise writes that parse's bytes and mask and terminates both |
| PatternScanner.Wildcard | cs2-internal/utilities/memory.cpp:368-377 | a pattern index is a wildcard when a mask is given and holds '?' there (a definition) |
| PatternScanner.ByteMatches | cs2-internal/utilities/memory.cpp:374-383 | a pattern byte accepts the region's byte when it is a wildcard or equal (a definition) |
| PatternScanner.MatchAt | cs2-internal/utilities/memory.cpp:374-383 | the whole window at a position fits in the region and every pattern byte accepts its byte (a definition) |
| PatternScanner.FirstMismatch | cs2-internal/utilities/memory.cpp:374-383 | the first pattern index that rejects its byte: all before it match, and it mismatches unless it is the count |
| PatternScanner.SkipHits | cs2-internal/utilities/memory.cpp:365-424 | the hits of the skip rule from a cursor (a definition; its properties are stated by `SkipHitsSound` and `SkipHitsAdvance`) |
| PatternScanner.SkipHitsSound | cs2-internal/utilities/memory.cpp:359-427 | each hit of the skip rule is a genuine match, lies at or after the cursor, ends before the region's last byte, and hits strictly ascend |
| PatternScanner.SkipHitsAdvance | cs2-internal/utilities/memory.cpp:375-423 | one step of the skip rule: a full match is a hit and the cursor moves by 1; a mismatch at pattern index j reports nothing and moves it by j, or by 1 when j is 0 |
| PatternScanner.FindPatternEx | cs2-internal/utilities/memory.cpp:359-390 | returns the first hit of the skip rule; any offset it returns is a genuine match |
| PatternScanner.FindPatternAllOccurrencesEx | cs2-internal/utilities/memory.cpp:392-427 | returns exactly the hits of the skip rule, in order, so its first element is what `FindPatternEx` returns |
| PatternScanner.Matches | cs2-internal/utilities/memory.cpp:359-427 | reference filter: its positions are exactly the matching windows in the range |
| PatternScanner.SingleByteHitsAreAllMatches | cs2-internal/utilities/memory.cpp:365-389 | for a one-byte pattern the hits are exactly the matches, except the last position |
| PatternScanner.SkipRuleMissesMatch | cs2-internal/utilities/memory.cpp:375-386 | AA AA AB matches AA AA AA AB 00 at offset 1, yet the skip rule reports no hit |
| PatternScanner.LastWindowMissed | cs2-internal/utilities/memory.cpp:362-365 | a one-byte region holding the one-byte pattern gets no hit |
| PatternScanner.FindFirstMatch | cs2-internal/utilities/memory.cpp:359-390 | corrected scan: the leftmost matching window, the last window included, or none exactly when no window matches |
| PeImage.HeadersValid | cs2-internal/utilities/memory.cpp:153-159 | the DOS and NT signatures both hold (a definition, used by `GetExportAddress`, `GetSectionInfo` and `ScanModule`) |
| PeImage.IsForwarder | cs2-internal/utilities/memory.cpp:191 | an RVA inside the export directory names a forwarded export (a definition, used by `GetExportAddress`) |
| PeImage.HasExports | cs2-internal/utilities/memory.cpp:164-168 | the export directory has a non-zero size and RVA (a definition, used by `GetExportAddress`) |
| PeImage.FunctionRva | cs2-internal/utilities/memory.cpp:186 | the name's ordinal leads to an entry of the export address table |
| PeImage.CompareMeansLess | cs2-internal/utilities/memory.cpp:200-203 | a positive comparison means the sought name sorts after the middle name |
| PeImage.SortedNames | cs2-internal/utilities/memory.cpp:176-204 | the name table is in strictly ascending order, as the binary search assumes (a definition) |
| PeImage.GetExportAddress | cs2-internal/utilities/memory.cpp:149-210 | null on a bad signature or no export directory; a non-null answer is the base plus the function RVA of an entry with exactly that name and is not a forwarder; null for an absent name; on sorted names, the address of every name present or null for a forwarder |
| PeImage.FindSection | cs2-internal/utilities/memory.cpp:227-240 | the first section whose name matches, or none when no section matches |
| PeImage.SectionNameMatches | cs2-internal/utilities/memory.cpp:230 | a section matches when the bounded comparison of at most 8 characters succeeds (a definition; `SectionNameMatchMeaning` states its meaning) |
| PeImage.SectionNameMatchMeaning | cs2-internal/utilities/memory.cpp:230 | a section's name matches when it agrees on at most 8 characters, the terminator included |
| PeImage.GetSectionInfo | cs2-internal/utilities/memory.cpp:212-244 | true exactly when the signatures are valid and a section matches; reports the first match's start and raw size through the non-null out-parameters; writes nothing otherwise |
| ModuleList.Flink | cs2-internal/utilities/memory.cpp:106 | each entry leads to the next, the last to the head, and the head to the first |
| ModuleList.NamedEntry | cs2-internal/utilities/memory.cpp:110 | an entry carries a name when its full name is set and its base name equals it (a definition) |
| ModuleList.FindNamed | cs2-internal/utilities/memory.cpp:106-115 | the first entry with the full name set and a base name equal to the sought one, or none |
| ModuleList.FindAtBase | cs2-internal/utilities/memory.cpp:133-142 | the first entry loaded at the base, or none |
| ModuleList.GetModuleBaseHandle | cs2-internal/utilities/memory.cpp:98-121 | the image base for a null name; otherwise the base of the first entry carrying the name, or null |
| ModuleList.GetModuleBaseFileName | cs2-internal/utilities/memory.cpp:123-147 | the base name of the first entry at the base (the image base for null), or none |
| ModuleList.BaseLeadsBackToName | cs2-internal/utilities/memory.cpp:98-147 | with distinct bases, the base found for a name leads back to the same entry, which carries that name |
| Memory.ModuleBase | cs2-internal/utilities/memory.cpp:98-121 | the image base for a null name; otherwise a non-null base belongs to an entry carrying the name, and with no such entry it is null |
| Memory.ScanModule | cs2-internal/utilities/memory.cpp:270-356 | a non-null result lies in a module with valid headers (the process image for a null name) and is a genuine match of the signature |
| Memory.FindPattern | cs2-internal/utilities/memory.cpp:270-356 | both build variants answer the module's base plus the skip rule's first hit, or null for a missing module, bad headers or no hit |
| Memory.FindPatternText | cs2-internal/utilities/memory.cpp:258-268 | the text form answers what the byte form answers for the compiled bytes and mask |
| UtlBuffer.Pow256 | cs2-internal/sdk/datatypes/buf/utlbuffer.h:706-724 | the number of values an integer of the given width holds is at least 1 |
| UtlBuffer.Splice | cs2-internal/sdk/datatypes/buf/utlbuffer.h:1061 | storing bytes at an index puts exactly those bytes there and keeps every other byte and the length |
| UtlBuffer.LittleEndian | cs2-internal/sdk/datatypes/buf/utlbuffer.h:1059-1062 | a store writes exactly `width` bytes |
| UtlBuffer.FromLittleEndian | cs2-internal/sdk/datatypes/buf/utlbuffer.h:710-713 | a load of n bytes gives a value that fits in n bytes |
| UtlBuffer.LittleEndianRoundTrip | cs2-internal/sdk/datatypes/buf/utlbuffer.h:1055-1070 | loading (as `GetTypeBin` does) the bytes this store wrote gives the stored value back |
| UtlBuffer.Buffer.IsText | cs2-internal/sdk/datatypes/buf/utlbuffer.h:1290-1294 | true exactly when bit 0 of the flags is set |
| UtlBuffer.Buffer.IsGrowable | cs2-internal/sdk/datatypes/buf/utlbuffer.h:1300-1303 | true exactly when bit 1 of the flags is set |
| UtlBuffer.Buffer.IsReadOnly | cs2-internal/sdk/datatypes/buf/utlbuffer.h:1327-1330 | true exactly when bit 3 of the flags is set |
| UtlBuffer.Buffer.ContainsCRLF | cs2-internal/sdk/datatypes/buf/utlbuffer.h:1318-1321 | true exactly when bits 0 and 2 are set, so only a text buffer can have it |
| UtlBuffer.Buffer.IsValid | cs2-internal/sdk/datatypes/buf/utlbuffer.h:1309-1312 | true exactly when neither the put nor the get overflow bit is set |
| UtlBuffer.Buffer.GetBytesRemaining | cs2-internal/sdk/datatypes/buf/utlbuffer.h:654-657 | the distance from the get cursor to the most ever put, wrapping modulo 2^64 when the cursor is past it |
| UtlBuffer.Buffer.WasLastCharacterCR | cs2-internal/sdk/datatypes/buf/utlbuffer.h:1162-1167 | false for a binary buffer or an empty put side; otherwise true exactly when the byte before the put cursor is '\n' |
| UtlBuffer.Buffer.CheckGet | cs2-internal/sdk/datatypes/buf/utlbuffer.h:440 | a yes means the bytes are in memory and below the most ever put; error bits only accumulate |
| UtlBuffer.Buffer.CheckPut | cs2-internal/sdk/datatypes/buf/utlbuffer.h:439 | a yes means there is room at the put cursor; memory only grows and keeps its contents, and a no leaves it unchanged |
| UtlBuffer.Buffer.AddNullTermination | cs2-internal/sdk/datatypes/buf/utlbuffer.h:444 | raises the most ever put to a put beyond it, changes at most the byte at that position and never changes a read-only buffer |
| UtlBuffer.Buffer.GetTypeBin | cs2-internal/sdk/datatypes/buf/utlbuffer.h:706-724 | either advances the get cursor by the width and yields the little-endian load of those bytes, or leaves the cursor and yields 0 |
| UtlBuffer.Buffer.PutTypeBin | cs2-internal/sdk/datatypes/buf/utlbuffer.h:1055-1070 | either stores the little-endian bytes at the put cursor, advances it and keeps it within the most ever put, or changes neither memory nor the most ever put; on a store the most ever put becomes the larger of its old value and the new cursor; memory never shrinks, and on a store every byte outside the stored bytes and the terminator position is kept |
| UtlBuffer.Buffer.PushTab | cs2-internal/sdk/datatypes/buf/utlbuffer.h:1182-1185 | the depth grows by one |
| UtlBuffer.Buffer.PopTab | cs2-internal/sdk/datatypes/buf/utlbuffer.h:1187-1193 | the depth shrinks by one and is clamped at 0 |
| UtlBuffer.Buffer.PushThenPop | cs2-internal/sdk/datatypes/buf/utlbuffer.h:1182-1193 | a push then a pop restores any depth that is not negative |
| UtlBuffer.Buffer.EnableTabs | cs2-internal/sdk/datatypes/buf/utlbuffer.h:1199-1209 | the disable bit is set exactly when tabs are disabled, no other flag bit moves, and the tab count becomes 0 or the depth |
| UtlBuffer.Buffer.TabCount | cs2-internal/sdk/datatypes/buf/utlbuffer.h:1171 | none while tabs are disabled, otherwise the depth |
| UtlBuffer.Buffer.PutTabs | cs2-internal/sdk/datatypes/buf/utlbuffer.h:1169-1176 | exactly `TabCount` one-byte puts of a tab are attempted, in order |
| UtlBuffer.Buffer.Clear | cs2-internal/sdk/datatypes/buf/utlbuffer.h:1355-1363 | cursors, error and offset become 0 and reading is unbounded; the memory is kept and the buffer is valid |
| UtlBuffer.Buffer.Purge | cs2-internal/sdk/datatypes/buf/utlbuffer.h:1365-1373 | everything becomes 0 and the memory is released, so no bytes remain |

## Left out

- `MEM::Setup`, `spoof_call`, the global `new`/`delete` operators and the heap wrappers: they are calls into the game's allocator and return-address spoofing, which the model cannot see.
- `MEM::FindPatterns` (the `UTILPtr` wrapper): a thin wrapper of `FindPattern`.
- The `#if 0` section-restricted scan in `FindPattern`: it is compiled out.
- Reading the PEB through the segment register and holding the loader lock are not modelled; the PEB is a parameter.
- The log messages of `FindPattern` (memory.cpp:312 and 348) are not modelled. The text they format with `BytesToPattern` is computed and then dropped.
- `PatternToBytes` models the build without the `CS_ASSERT` checks at memory.cpp:440 and 455. A debug build would abort where they fail; `IntendedParse` and `PatternToBytesChecked` turn them into rejections instead.
- crt.h is not part of this model. `StringCompare` and `StringCompareN` are given their strcmp/strncmp meaning. `CharToHexInt` is taken as case-insensitive, giving 0 for a non-hex character. The digit table is upper case.
- Wide-character module names (`wchar_t`) are plain character strings here.
- PeImage.GetExportAddress requires `ExportTablesWellFormed`: every ordinal indexes the function table and every name pointer is in the name table. The source reads these tables without checking them.
- Address arithmetic `base + rva` is unbounded: a 64-bit wrap-around of a pointer is not modelled.
- A byte count of 0 for the scanners is excluded by `PatternScanner.WellFormed`: the source would then compare index 1 of the pattern.
- `BytesToPattern` with no bytes is excluded by its precondition: the source would write its terminator before the buffer.
- PatternCompiler.PatternToBytes requires a pattern that stops on its terminator. On the others the source reads past the string, as `LoneWildcardOverrun` shows. `PatternToBytesChecked` handles them as intended.
- Memory.FindPatternText requires a well-terminated pattern with at least one token, for the same reason; on an empty pattern the source scans with a byte count of 0.
- CUtlBuffer text mode, byte swapping, floats and doubles, `Get`/`Put` of strings, `Detach`, `GetObject`, and the `CUtlMemory` internals are not modelled.
- The get and put overflow callbacks are not modelled: `CheckGet` and `CheckPut` never move `m_nOffset`.
- UtlBuffer.Buffer.CheckGet: it is only declared in the header, so its contract is weaker than the real check. A yes guarantees the window; a no may come at any time.
- UtlBuffer.Buffer.CheckPut: it is only declared in the header, so its contract is weaker than the real check. A yes guarantees the room; a growth may reallocate, but the contents are kept.
- UtlBuffer.Buffer.AddNullTermination: it is only declared in the header, so whether the 0 is actually stored is left open.
- UtlBuffer.Buffer.GetTypeBin and UtlBuffer.Buffer.PutTypeBin model the template type `T` only by its width (1 to 8 bytes), as an unsigned little-endian integer.
- UtlBuffer.Buffer.PutTabs: its contract is stated on the ghost log of attempted puts (`puts`), not on memory, because each put may be refused.
- UtlBuffer.Buffer.PutTypeBin: it does not state what `WasLastCharacterCR` answers after the put.
- UtlBuffer.Buffer.PushTab and UtlBuffer.Buffer.PopTab require that the 32-bit `int` does not overflow, since signed overflow is undefined in the source.
- `WasLastCharacterCR` checks for '\n' (line feed), not '\r', as its code does.

## Findings

| source | as written | input that shows it | evidently intended | confidence | as-written member | corrected member |
|---|---|---|---|---|---|---|
| cs2-internal/utilities/memory.cpp:375-386 | on a mismatch at pattern index m >= 1 the cursor moves forward by m, past windows that may still match | region AA AA AA AB 00, pattern AA AA AB: the match at offset 1 is skipped | find the leftmost matching window | not executed | PatternScanner.SkipRuleMissesMatch | PatternScanner.FindFirstMatch |
| cs2-internal/utilities/memory.cpp:362-365 | the loop runs while `cursor < size - count` | region 90, pattern 90: no hit | the window at `size - count` is tried too | not executed | PatternScanner.LastWindowMissed | PatternScanner.FindFirstMatch |
| cs2-internal/utilities/memory.cpp:436-464 | every token consumes the character after its first one, even when that is the terminator, and the loop then steps past it | pattern "? ?" (or "DE ? BE ?"): the parser steps over the terminator and needs 3 bytes of a 2-byte buffer | a wildcard right before the terminator is emitted and ends the pattern, and a token the paranoid checks refuse rejects it | not executed | PatternCompiler.LoneWildcardOverrun | PatternCompiler.PatternToBytesChecked |
| cs2-internal/utilities/memory.cpp:261-264 | both stack buffers hold `strlen / 2 + 1` bytes | pattern "? ?": two wildcards and the terminator need 3 bytes of a 2-byte buffer | buffers of `(strlen + 1) / 2 + 1` bytes, enough for every intended parse | not executed | PatternCompiler.IntendedExamples | PatternCompiler.IntendedBufferFits |

=== FILE: crt.dfy ===
/**
 * Stand-ins for the string helpers of the runtime header crt.h, which is not part of this model:
 * `CRT::StringCompare`, `CRT::StringCompareN`, `CRT::CharToHexInt` and `CRT::_TWO_DIGITS_HEX_LUT`.
 * They are given their C-library meaning (strcmp, strncmp, hex digit value, two hex digits per byte).
 */
module Crt {
  import opened Types

  /** `CRT::StringCompare`: strcmp-like order, -1, 0 or 1 by the first differing character; a proper prefix is smaller. */
  function StringCompare(a: CString, b: CString): (r: int)
    ensures -1 <= r <= 1
    ensures r == 0 <==> a == b
    decreases |a|
  {
    if a == [] && b == [] then 0
    else if a == [] then -1
    else if b == [] then 1
    else if a[0] < b[0] then -1
    else if a[0] > b[0] then 1
    else
      var r := StringCompare(a[1..], b[1..]);
      assert a == [a[0]] + a[1..] && b == [b[0]] + b[1..];
      r
  }

  /** Strict order of C strings as `StringCompare` sees it. */
  predicate StringLess(a: CString, b: CString)
  {
    StringCompare(a, b) < 0
  }

  /** Swapping the arguments negates the comparison. */
  lemma {:induction false} StringCompareAntisymmetric(a: CString, b: CString)
    ensures StringCompare(a, b) == -StringCompare(b, a)
    decreases |a|
  {
    if a != [] && b != [] && a[0] == b[0] {
      StringCompareAntisymmetric(a[1..], b[1..]);
    }
  }

  /** `StringLess` is transitive, which the export table's binary search relies on. */
  lemma {:induction false} StringLessTransitive(a: CString, b: CString, c: CString)
    requires StringLess(a, b) && StringLess(b, c)
    ensures StringLess(a, c)
    decreases |a|
  {
    if a != [] && b != [] && c != [] && a[0] == b[0] && b[0] == c[0] {
      StringLessTransitive(a[1..], b[1..], c[1..]);
    }
  }

  /** `CRT::StringCompareN(a, b, n) == 0`: strncmp equality on characters `i..n-1`, stopping at a common terminator. */
  function EqualUpTo(a: seq<char>, b: seq<char>, i: nat, n: nat): bool
    decreases n - i
  {
    if i >= n then true
    else if CharAt(a, i) != CharAt(b, i) then false
    else if CharAt(a, i) == '\0' then true
    else EqualUpTo(a, b, i + 1, n)
  }

  /**
   * Comparing a C string `a` with a fixed field `b` on at most `n` characters succeeds exactly when
   * the first min(n, |a| + 1) characters agree, the terminator of `a` included.
   */
  lemma {:induction false} EqualUpToMeaning(a: CString, b: seq<char>, i: nat, n: nat)
    requires i <= |a|
    ensures EqualUpTo(a, b, i, n) <==> forall k :: i <= k < n && k <= |a| ==> CharAt(b, k) == CharAt(a, k)
    decreases n - i
  {
    if i < n {
      CStringLength(a, i);
      if CharAt(a, i) == CharAt(b, i) && CharAt(a, i) != '\0' {
        EqualUpToMeaning(a, b, i + 1, n);
      }
    }
  }

  /** One row of `CRT::_TWO_DIGITS_HEX_LUT`: the digits, upper case. */
  const HEX_DIGITS: seq<char> := "0123456789ABCDEF"

  /** `CRT::CharToHexInt`: the value of a hexadecimal digit of either case; any other character reads as 0. */
  function CharToHexInt(c: char): (v: nat)
    ensures v < 16
    ensures v != 0 ==> '1' <= c <= '9' || 'A' <= c <= 'F' || 'a' <= c <= 'f'
  {
    if '0' <= c <= '9' then c as int - '0' as int
    else if 'A' <= c <= 'F' then c as int - 'A' as int + 10
    else if 'a' <= c <= 'f' then c as int - 'a' as int + 10
    else 0
  }

  /** `CharToHexInt` inverts the digit table. */
  lemma HexDigitRoundTrip(v: nat)
    requires v < 16
    ensures CharToHexInt(HEX_DIGITS[v]) == v
    ensures HEX_DIGITS[v] != ' ' && HEX_DIGITS[v] != '?' && HEX_DIGITS[v] != '\0'
  {
  }

  /** The two characters `_TWO_DIGITS_HEX_LUT[b * 2]` and `[b * 2 + 1]`: high nibble first. */
  function TwoDigitHex(b: uint8): (s: seq<char>)
    ensures |s| == 2
  {
    [HEX_DIGITS[b as int / 16], HEX_DIGITS[b as int % 16]]
  }
}

=== FILE: memory.dfy ===
/**
 * `MEM::FindPattern`: finds a module by name in the loader's list (the process image for a null
 * name), checks its headers and scans its whole image (`SizeOfImage` bytes from its base) for a
 * signature, with either of the two scanners. The text form compiles its pattern on the stack first.
 */
module Memory {
  import opened Types
  import opened PatternCompiler
  import opened PatternScanner
  import opened PeImage
  import opened ModuleList

  /** The process as the scan sees it: the loader's module list and the images mapped at their bases. */
  datatype Process = Process(peb: Peb, images: map<Addr, Image>)

  /** The process image and every module in the list that has a base have an image mapped there. */
  predicate ModulesMapped(proc: Process)
  {
    (proc.peb.imageBaseAddress != NULL ==> proc.peb.imageBaseAddress in proc.images) &&
    forall k :: 0 <= k < |proc.peb.entries| && proc.peb.entries[k].dllBase != NULL ==>
      proc.peb.entries[k].dllBase in proc.images
  }

  /**
   * The base `GetModuleBaseHandle` answers for `name`: the process image's base for a null name,
   * otherwise the first entry carrying the name, or null.
   */
  function ModuleBase(peb: Peb, name: Option<CString>): (base: Addr)
    ensures name.None? ==> base == peb.imageBaseAddress
    ensures name.Some? && base != NULL ==>
      exists k :: 0 <= k < |peb.entries| && NamedEntry(peb.entries[k], name.value) && peb.entries[k].dllBase == base
    ensures name.Some? && (forall k :: 0 <= k < |peb.entries| ==> !NamedEntry(peb.entries[k], name.value)) ==> base == NULL
  {
    match name
    case None => peb.imageBaseAddress
    case Some(n) =>
      match FindNamed(peb.entries, n, 0)
      case Some(k) => peb.entries[k].dllBase
      case None => NULL
  }

  /**
   * What a scan of module `name` (the process image when it is null) for `sig` answers: null
   * when the module is missing or its headers are bad, otherwise the base plus the first hit of the skip rule in its image, or null.
   */
  function ScanModule(proc: Process, name: Option<CString>, sig: Signature): (r: Addr)
    requires ModulesMapped(proc) && WellFormed(sig)
    ensures r != NULL ==> ModuleBase(proc.peb, name) != NULL && HeadersValid(proc.images[ModuleBase(proc.peb, name)])
    ensures r != NULL ==> (ModuleBase(proc.peb, name) <= r &&
      MatchAt(proc.images[ModuleBase(proc.peb, name)].memory, r - ModuleBase(proc.peb, name), sig))
  {
    var base := ModuleBase(proc.peb, name);
    if base == NULL || !HeadersValid(proc.images[base]) then NULL
    else
      SkipHitsSound(proc.images[base].memory, sig, 0);
      match FirstHit(SkipHits(proc.images[base].memory, sig, 0))
      case None => NULL
      case Some(offset) => base + offset
  }

  /**
   * `MEM::FindPattern(module, bytes, mask)`: the byte count is the mask's length, since pattern
   * bytes may be 0. Whether the build collects every occurrence (`CS_PARANOID_PATTERN_UNIQUENESS`)
   * or stops at the first, the answer is the same.
   */
  method FindPattern(proc: Process, moduleName: Option<CString>, bytePattern: seq<uint8>, byteMask: CString, paranoid: bool)
    returns (r: Addr)
    requires ModulesMapped(proc)
    requires 1 <= |byteMask| <= |bytePattern|
    ensures r == ScanModule(proc, moduleName, Signature(bytePattern, |byteMask|, Some(byteMask)))
  {
    var moduleBase := GetModuleBaseHandle(proc.peb, moduleName);
    if moduleBase == NULL {
      return NULL;
    }
    var img := proc.images[moduleBase];
    if img.eMagic != IMAGE_DOS_SIGNATURE {
      return NULL;
    }
    if img.ntSignature != IMAGE_NT_SIGNATURE {
      return NULL;
    }
    var byteCount := |byteMask|;
    var sig := Signature(bytePattern, byteCount, Some(byteMask));
    var found := NULL;
    if paranoid {
      var occurrences := FindPatternAllOccurrencesEx(img.memory, sig);
      if occurrences != [] {
        if |occurrences| > 1 {
          // The pattern is not unique; its text is formatted for the warning.
          var text := new char[3 * byteCount];
          var _ := BytesToPattern(bytePattern[..byteCount], text);
        }
        found := moduleBase + occurrences[0];
      }
    } else {
      var offset := FindPatternEx(img.memory, sig);
      if offset.Some? {
        found := moduleBase + offset.value;
      }
    }
    if found == NULL {
      // The pattern's text is formatted for the "not found" message.
      var text := new char[3 * byteCount];
      var _ := BytesToPattern(bytePattern[..byteCount], text);
    }
    return found;
  }

  /**
   * `MEM::FindPattern(module, pattern)`: compiles the text pattern into two stack buffers of
   * `strlen / 2 + 1` bytes and scans with the compiled bytes and mask. The pattern must stop on
   * its terminator and hold at least one token.
   */
  method FindPatternText(proc: Process, moduleName: Option<CString>, pattern: CString, paranoid: bool) returns (r: Addr)
    requires ModulesMapped(proc)
    requires WellTerminated(pattern, 0) && Compile(pattern, 0).bytes != []
    ensures r == ScanModule(proc, moduleName,
      Signature(Compile(pattern, 0).bytes, |Compile(pattern, 0).bytes|, Some(Compile(pattern, 0).mask)))
  {
    var bufferSize := |pattern| / 2 + 1;
    var byteBuffer := new uint8[bufferSize];
    var maskBuffer := new char[bufferSize];
    StackBufferFits(pattern);
    EmittedCountIsCompiledLength(pattern, 0);
    var n := PatternToBytes(pattern, byteBuffer, maskBuffer);
    CompiledShape(pattern, 0);
    var mask: CString := maskBuffer[..n];
    r := FindPattern(proc, moduleName, byteBuffer[..n], mask, paranoid);
  }
}

=== FILE: module_list.dfy ===
/**
 * The loader's list of loaded modules as `MEM::GetModuleBaseHandle` and
 * `MEM::GetModuleBaseFileName` walk it: a circular doubly linked list threaded through the
 * `InMemoryOrderLinks` of each loader entry and closed by a head that is not an entry.
 *
 * Links are numbered: entry `i` of `entries` is link `i`, and the head is link `|entries|`.
 * Following `Flink` from the head visits the entries in order and comes back to the head.
 */
module ModuleList {
  import opened Types
  import opened Crt

  /**
   * The fields of `_LDR_DATA_TABLE_ENTRY` the lookups read: the base address, whether the full
   * name's buffer is set (and what it holds), and the base name.
   */
  datatype LdrEntry = LdrEntry(dllBase: Addr, fullDllName: Option<CString>, baseDllName: CString)

  /** What the lookups read of the process environment block: the image base and the module list. */
  datatype Peb = Peb(imageBaseAddress: Addr, entries: seq<LdrEntry>)

  /** The link of the list's head. */
  function Head(peb: Peb): nat
  {
    |peb.entries|
  }

  /** `Flink`: each entry leads to the next, the last entry back to the head, and the head to the first entry. */
  function Flink(peb: Peb, link: nat): (next: nat)
    requires link <= Head(peb)
    ensures next <= Head(peb)
    ensures link < Head(peb) ==> next == link + 1
    ensures link == Head(peb) ==> next == 0
  {
    (link + 1) % (|peb.entries| + 1)
  }

  /** The entry `GetModuleBaseHandle` accepts for `name`: its full name's buffer is set and its base name equals `name`. */
  predicate NamedEntry(entry: LdrEntry, name: CString)
  {
    entry.fullDllName.Some? && entry.baseDllName == name
  }

  /** The first entry from index `i` on that carries `name`, if any. */
  function FindNamed(entries: seq<LdrEntry>, name: CString, i: nat): (r: Option<nat>)
    requires i <= |entries|
    ensures r.Some? ==> i <= r.value < |entries| && NamedEntry(entries[r.value], name)
    ensures r.Some? ==> forall j :: i <= j < r.value ==> !NamedEntry(entries[j], name)
    ensures r.None? ==> forall j :: i <= j < |entries| ==> !NamedEntry(entries[j], name)
    decreases |entries| - i
  {
    if i == |entries| then None
    else if NamedEntry(entries[i], name) then Some(i)
    else FindNamed(entries, name, i + 1)
  }

  /** The first entry from index `i` on loaded at `base`, if any. */
  function FindAtBase(entries: seq<LdrEntry>, base: Addr, i: nat): (r: Option<nat>)
    requires i <= |entries|
    ensures r.Some? ==> i <= r.value < |entries| && entries[r.value].dllBase == base
    ensures r.Some? ==> forall j :: i <= j < r.value ==> entries[j].dllBase != base
    ensures r.None? ==> forall j :: i <= j < |entries| ==> entries[j].dllBase != base
    decreases |entries| - i
  {
    if i == |entries| then None
    else if entries[i].dllBase == base then Some(i)
    else FindAtBase(entries, base, i + 1)
  }

  /**
   * `MEM::GetModuleBaseHandle`: the image base for a null name; otherwise the base of the first
   * entry after the head whose full name is set and whose base name equals `name`, or null.
   */
  method GetModuleBaseHandle(peb: Peb, name: Option<CString>) returns (r: Addr)
    ensures name.None? ==> r == peb.imageBaseAddress
    ensures name.Some? && FindNamed(peb.entries, name.value, 0).Some? ==>
      r == peb.entries[FindNamed(peb.entries, name.value, 0).value].dllBase
    ensures name.Some? && FindNamed(peb.entries, name.value, 0).None? ==> r == NULL
  {
    if name.None? {
      return peb.imageBaseAddress;
    }
    var moduleBase := NULL;
    var link := Flink(peb, Head(peb));
    while link != Head(peb)
      invariant link <= Head(peb)
      invariant FindNamed(peb.entries, name.value, link) == FindNamed(peb.entries, name.value, 0)
      decreases Head(peb) - link
    {
      var entry := peb.entries[link];
      if entry.fullDllName.Some? && StringCompare(name.value, entry.baseDllName) == 0 {
        moduleBase := entry.dllBase;
        break;
      }
      link := Flink(peb, link);
    }
    return moduleBase;
  }

  /**
   * `MEM::GetModuleBaseFileName`: the base name of the first entry loaded at `moduleBase` (the
   * image base when it is null), or none.
   */
  method GetModuleBaseFileName(peb: Peb, moduleBase: Addr) returns (r: Option<CString>)
    ensures var base := if moduleBase == NULL then peb.imageBaseAddress else moduleBase;
      match FindAtBase(peb.entries, base, 0)
      case Some(k) => r == Some(peb.entries[k].baseDllName)
      case None => r.None?
  {
    var base := moduleBase;
    if base == NULL {
      base := peb.imageBaseAddress;
    }
    var moduleName: Option<CString> := None;
    var link := Flink(peb, Head(peb));
    while link != Head(peb)
      invariant link <= Head(peb)
      invariant FindAtBase(peb.entries, base, link) == FindAtBase(peb.entries, base, 0)
      decreases Head(peb) - link
    {
      var entry := peb.entries[link];
      if entry.dllBase == base {
        moduleName := Some(entry.baseDllName);
        break;
      }
      link := Flink(peb, link);
    }
    return moduleName;
  }

  /**
   * The two lookups are inverse on a list whose modules sit at distinct bases: the base
   * found for a name leads back to an entry carrying that name.
   */
  lemma {:induction false} BaseLeadsBackToName(peb: Peb, name: CString)
    requires forall a, b :: 0 <= a < b < |peb.entries| ==> peb.entries[a].dllBase != peb.entries[b].dllBase
    requires FindNamed(peb.entries, name, 0).Some?
    ensures var k := FindNamed(peb.entries, name, 0).value;
      FindAtBase(peb.entries, peb.entries[k].dllBase, 0) == Some(k) && peb.entries[k].baseDllName == name
  {
    var k := FindNamed(peb.entries, name, 0).value;
    assert FindAtBase(peb.entries, peb.entries[k].dllBase, 0).Some?;
  }
}

=== FILE: pattern_compiler.dfy ===
/**
 * The pattern compiler of the signature scanner: `MEM::PatternToBytes` turns text such as
 * "48 8B ? 05" into a byte buffer and a parallel mask ('x' = must match, '?' = wildcard);
 * `MEM::BytesToPattern` turns bytes back into that text.
 *
 * The parser works character by character: a space is skipped; any other character starts a
 * token that always consumes two characters. A '?' emits byte 0 with mask '?' and swallows the
 * next character (the second '?' of "??" or the separating space); anything else is read as two
 * hexadecimal digits.
 */
module PatternCompiler {
  import opened Types
  import opened Crt

  /** The two parallel buffers the compiler fills (without their terminators). */
  datatype Compiled = Compiled(bytes: seq<uint8>, mask: seq<char>)

  /**
   * The parser, started at `i`, stops on the terminator: no token starts on the last character.
   * A token starting there would step over the terminator and read past the end of the string.
   */
  predicate WellTerminated(s: CString, i: nat)
    decreases |s| - i
  {
    i <= |s| &&
    (i == |s| ||
     (s[i] == ' ' && WellTerminated(s, i + 1)) ||
     (s[i] != ' ' && i + 1 < |s| && WellTerminated(s, i + 2)))
  }

  /**
   * The byte of the token starting at `i`. For a hex pair it is `(hi << 4) | lo`; both nibbles are
   * below 16, so the shift does not truncate and the or is a sum.
   */
  function TokenByte(s: CString, i: nat): uint8
    requires i + 1 < |s|
  {
    if s[i] == '?' then 0
    else (CharToHexInt(s[i]) * 16 + CharToHexInt(s[i + 1])) as uint8
  }

  /**
   * What the parser emits from position `i` on: one byte and one mask character per token. A
   * token on the last character is where the parser would step over the terminator; it emits
   * nothing here, and `WellTerminated` rules it out wherever the result is used.
   */
  function Compile(s: CString, i: nat): (c: Compiled)
    requires i <= |s|
    ensures |c.bytes| == |c.mask|
    ensures 2 * |c.bytes| <= |s| - i
    decreases |s| - i
  {
    if i == |s| then Compiled([], [])
    else if s[i] == ' ' then Compile(s, i + 1)
    else if i + 1 == |s| then Compiled([], [])
    else
      var rest := Compile(s, i + 2);
      Compiled([TokenByte(s, i)] + rest.bytes, [MaskChar(s[i])] + rest.mask)
  }

  /** The mask character of a token: '?' for a wildcard, 'x' for a hex pair. */
  function MaskChar(c: char): char
  {
    if c == '?' then '?' else 'x'
  }

  /**
   * The compiled mask holds only 'x' and '?', so it has no terminator inside, and every wildcard
   * position holds byte 0.
   */
  lemma {:induction false} CompiledShape(s: CString, i: nat)
    requires i <= |s|
    ensures forall k :: 0 <= k < |Compile(s, i).mask| ==> Compile(s, i).mask[k] in "x?"
    ensures forall k :: 0 <= k < |Compile(s, i).mask| && Compile(s, i).mask[k] == '?' ==> Compile(s, i).bytes[k] == 0
    decreases |s| - i
  {
    if i < |s| {
      if s[i] == ' ' {
        CompiledShape(s, i + 1);
      } else if i + 1 < |s| {
        CompiledShape(s, i + 2);
      }
    }
  }

  /**
   * One step of the parser at position `i` when `written` tokens of the whole output `whole` are
   * already out: a space emits nothing, any other character emits the next token of `whole`.
   */
  lemma CompileStep(s: CString, i: nat, whole: Compiled, written: nat)
    requires i < |s|
    requires written <= |whole.bytes| && written <= |whole.mask|
    requires Compile(s, i) == Compiled(whole.bytes[written..], whole.mask[written..])
    ensures s[i] == ' ' ==> (WellTerminated(s, i) <==> WellTerminated(s, i + 1)) && Compile(s, i + 1) == Compile(s, i)
    ensures s[i] != ' ' && i + 1 == |s| ==> !WellTerminated(s, i)
    ensures s[i] != ' ' && i + 1 < |s| ==> (WellTerminated(s, i) <==> WellTerminated(s, i + 2))
    ensures s[i] != ' ' && i + 1 < |s| ==> written < |whole.bytes| && written < |whole.mask|
    ensures s[i] != ' ' && i + 1 < |s| ==> whole.bytes[written] == TokenByte(s, i) && whole.mask[written] == MaskChar(s[i])
    ensures s[i] != ' ' && i + 1 < |s| ==> Compile(s, i + 2) == Compiled(whole.bytes[written + 1..], whole.mask[written + 1..])
  {
    if s[i] != ' ' && i + 1 < |s| {
      var rest := Compile(s, i + 2);
      assert whole.bytes[written..] == [TokenByte(s, i)] + rest.bytes;
      assert whole.mask[written..] == [MaskChar(s[i])] + rest.mask;
      assert whole.bytes[written + 1..] == whole.bytes[written..][1..];
      assert whole.mask[written + 1..] == whole.mask[written..][1..];
    }
  }

  /**
   * How many tokens the parser emits from `i` before it reaches the terminator or steps over it;
   * this is defined for every string, including those on which the parser overruns.
   */
  function EmittedCount(s: CString, i: nat): nat
    decreases |s| - i
  {
    if i >= |s| then 0
    else if s[i] == ' ' then EmittedCount(s, i + 1)
    else 1 + EmittedCount(s, i + 2)
  }

  /** On a well-terminated pattern the emitted tokens are exactly the compiled ones. */
  lemma {:induction false} EmittedCountIsCompiledLength(s: CString, i: nat)
    requires WellTerminated(s, i)
    ensures EmittedCount(s, i) == |Compile(s, i).bytes|
    decreases |s| - i
  {
    if i < |s| {
      if s[i] == ' ' {
        EmittedCountIsCompiledLength(s, i + 1);
      } else {
        EmittedCountIsCompiledLength(s, i + 2);
      }
    }
  }

  /**
   * The callers allocate `strlen / 2 + 1` bytes for each buffer. The compiler writes one byte per
   * token plus a terminator, which fits whenever the parser stops on the terminator.
   */
  lemma StackBufferFits(s: CString)
    requires WellTerminated(s, 0)
    ensures EmittedCount(s, 0) + 1 <= |s| / 2 + 1
  {
    EmittedCountIsCompiledLength(s, 0);
  }

  /**
   * `MEM::PatternToBytes`: writes the compiled bytes and mask, terminates both buffers just after
   * them and returns the number of tokens.
   */
  method PatternToBytes(pattern: CString, outBytes: array<uint8>, outMask: array<char>) returns (n: nat)
    requires WellTerminated(pattern, 0)
    requires |Compile(pattern, 0).bytes| < outBytes.Length
    requires |Compile(pattern, 0).bytes| < outMask.Length
    modifies outBytes, outMask
    ensures n == |Compile(pattern, 0).bytes|
    ensures outBytes[..n] == Compile(pattern, 0).bytes && outBytes[n] == 0
    ensures outMask[..n] == Compile(pattern, 0).mask && outMask[n] == '\0'
    ensures forall j :: n < j < outBytes.Length ==> outBytes[j] == old(outBytes[j])
    ensures forall j :: n < j < outMask.Length ==> outMask[j] == old(outMask[j])
  {
    ghost var whole := Compile(pattern, 0);
    var i := 0;
    n := 0;
    while CharAt(pattern, i) != '\0'
      invariant i <= |pattern| && WellTerminated(pattern, i)
      invariant n <= |whole.bytes| && Compile(pattern, i) == Compiled(whole.bytes[n..], whole.mask[n..])
      invariant forall j :: 0 <= j < n ==> outBytes[j] == whole.bytes[j] && outMask[j] == whole.mask[j]
      invariant forall j :: n <= j < outBytes.Length ==> outBytes[j] == old(outBytes[j])
      invariant forall j :: n <= j < outMask.Length ==> outMask[j] == old(outMask[j])
      decreases |pattern| - i
    {
      CStringLength(pattern, i);
      CompileStep(pattern, i, whole, n);
      if pattern[i] == '?' {
        i := i + 1;
        outBytes[n] := 0;
        outMask[n] := '?';
        n := n + 1;
      } else if pattern[i] != ' ' {
        var value := CharToHexInt(pattern[i]) * 16;
        i := i + 1;
        value := value + CharToHexInt(CharAt(pattern, i));
        outBytes[n] := value as uint8;
        outMask[n] := 'x';
        n := n + 1;
      }
      i := i + 1;
    }
    CStringLength(pattern, i);
    outBytes[n] := 0;
    outMask[n] := '\0';
    assert outBytes[..n] == whole.bytes && outMask[..n] == whole.mask;
  }

  /** The text `BytesToPattern` produces: two hex digits per byte, separated by single spaces. */
  function HexText(bytes: seq<uint8>): (s: seq<char>)
    requires |bytes| >= 1
    ensures |s| == 3 * |bytes| - 1
    ensures '\0' !in s
    decreases |bytes|
  {
    assert '\0' !in HEX_DIGITS;
    if |bytes| == 1 then TwoDigitHex(bytes[0])
    else TwoDigitHex(bytes[0]) + [' '] + HexText(bytes[1..])
  }

  /** Two hex digits and a space per byte: what the loop of `BytesToPattern` has written so far. */
  function Spaced(bytes: seq<uint8>): (s: seq<char>)
    ensures |s| == 3 * |bytes|
  {
    if bytes == [] then [] else TwoDigitHex(bytes[0]) + [' '] + Spaced(bytes[1..])
  }

  /** The `i`-th group of three characters of `Spaced(bytes)` is the `i`-th byte's digits and a space. */
  lemma {:induction false} SpacedAt(bytes: seq<uint8>, i: nat)
    requires i < |bytes|
    ensures Spaced(bytes)[3 * i] == TwoDigitHex(bytes[i])[0]
    ensures Spaced(bytes)[3 * i + 1] == TwoDigitHex(bytes[i])[1]
    ensures Spaced(bytes)[3 * i + 2] == ' '
  {
    if i > 0 {
      SpacedAt(bytes[1..], i - 1);
    }
  }

  lemma {:induction false} SpacedIsHexText(bytes: seq<uint8>)
    requires |bytes| >= 1
    ensures Spaced(bytes) == HexText(bytes) + [' ']
  {
    if |bytes| > 1 {
      SpacedIsHexText(bytes[1..]);
    }
  }

  /**
   * `MEM::BytesToPattern`: writes the hex text of `bytes` and its terminator into `out` (which has
   * room for three characters per byte) and returns the text's length, `3 n - 1`.
   */
  method BytesToPattern(bytes: seq<uint8>, out: array<char>) returns (len: nat)
    requires 1 <= |bytes|
    requires 3 * |bytes| <= out.Length
    modifies out
    ensures len == 3 * |bytes| - 1
    ensures out[..len] == HexText(bytes) && out[len] == '\0'
    ensures forall j :: len < j < out.Length ==> out[j] == old(out[j])
  {
    var p := 0;
    for i := 0 to |bytes|
      invariant p == 3 * i
      invariant forall j :: 0 <= j < p ==> out[j] == Spaced(bytes)[j]
      invariant forall j :: p <= j < out.Length ==> out[j] == old(out[j])
    {
      var digits := TwoDigitHex(bytes[i]);
      SpacedAt(bytes, i);
      out[p] := digits[0];
      out[p + 1] := digits[1];
      out[p + 2] := ' ';
      p := p + 3;
    }
    SpacedIsHexText(bytes);
    p := p - 1;
    out[p] := '\0';
    len := p;
    assert out[..len] == Spaced(bytes)[..len];
  }

  /** The byte a hex-digit pair of `TwoDigitHex` compiles to is the byte it was made from. */
  lemma TwoDigitHexRoundTrip(b: uint8)
    ensures var h := TwoDigitHex(b);
      h[0] != ' ' && h[0] != '?' && h[1] != ' ' && h[1] != '?' && h[1] != '\0' &&
      (CharToHexInt(h[0]) * 16 + CharToHexInt(h[1])) as uint8 == b
  {
    HexDigitRoundTrip(b as int / 16);
    HexDigitRoundTrip(b as int % 16);
  }

  /** Compiling the hex text of `bytes`, wherever it starts in a string, gives the bytes back with an all-'x' mask. */
  lemma {:induction false} CompileHexText(prefix: CString, bytes: seq<uint8>)
    requires |bytes| >= 1
    ensures WellTerminated(prefix + HexText(bytes), |prefix|)
    ensures Compile(prefix + HexText(bytes), |prefix|) == Compiled(bytes, seq(|bytes|, _ => 'x'))
    ensures IntendedParse(prefix + HexText(bytes), |prefix|).ok
    decreases |bytes|
  {
    var s: CString := prefix + HexText(bytes);
    var p := |prefix|;
    var h := TwoDigitHex(bytes[0]);
    TwoDigitHexRoundTrip(bytes[0]);
    assert s[p] == h[0] && s[p + 1] == h[1];
    assert TokenByte(s, p) == bytes[0];
    assert TokenFollows(s, p);
    if |bytes| == 1 {
      assert |s| == p + 2;
      assert Compile(s, p + 2) == Compiled([], []);
      assert IntendedParse(s, p + 2).ok;
    } else {
      var prefix': CString := prefix + h + [' '];
      assert s == prefix' + HexText(bytes[1..]);
      assert s[p + 2] == ' ';
      CompileHexText(prefix', bytes[1..]);
      assert |prefix'| == p + 3;
      assert Compile(s, p + 2) == Compile(s, p + 3);
      assert IntendedParse(s, p + 2) == IntendedParse(s, p + 3);
      assert [bytes[0]] + bytes[1..] == bytes;
      assert ['x'] + seq(|bytes| - 1, _ => 'x') == seq(|bytes|, _ => 'x');
    }
  }

  /**
   * Round trip: the text `BytesToPattern` writes for `bytes` compiles back, under `PatternToBytes`,
   * to the same bytes with every mask character 'x'.
   */
  lemma PatternRoundTrip(bytes: seq<uint8>)
    requires |bytes| >= 1
    ensures WellTerminated(HexText(bytes), 0)
    ensures Compile(HexText(bytes), 0) == Compiled(bytes, seq(|bytes|, _ => 'x'))
    ensures IntendedParse(HexText(bytes), 0) == Parse(true, Compiled(bytes, seq(|bytes|, _ => 'x')))
  {
    CompileHexText([], bytes);
    assert [] + HexText(bytes) == HexText(bytes);
    IntendedAgreesWhenTerminated(HexText(bytes), 0);
  }

  /**
   * A pattern ending in a lone '?' makes the parser step over its terminator: in "? ?" the second
   * wildcard starts on the last character. Its two tokens and terminator also need three bytes, one
   * more than the `strlen / 2 + 1` the callers allocate.
   */
  lemma LoneWildcardOverrun()
    ensures !WellTerminated("? ?", 0)
    ensures EmittedCount("? ?", 0) + 1 > |"? ?"| / 2 + 1
  {
    assert !WellTerminated("? ?", 2);
    assert EmittedCount("? ?", 2) == 1;
  }

  /** "DE AD BE EF" compiles to its four bytes, all to be matched exactly. */
  lemma FourByteExample()
    ensures WellTerminated("DE AD BE EF", 0)
    ensures Compile("DE AD BE EF", 0) == Compiled([0xDE, 0xAD, 0xBE, 0xEF], "xxxx")
  {
    var s: CString := "DE AD BE EF";
    assert Compile(s, 9) == Compiled([0xEF], "x");
    assert Compile(s, 6) == Compiled([0xBE, 0xEF], "xx");
    assert Compile(s, 3) == Compiled([0xAD, 0xBE, 0xEF], "xxx");
  }

  /**
   * "DE ? BE ?" ends in a lone '?': the last token starts on the last character, so the parser
   * steps over the terminator; only "DE ? BE ??" (or a trailing space) stops on it.
   */
  lemma TrailingWildcardExample()
    ensures !WellTerminated("DE ? BE ?", 0)
    ensures WellTerminated("DE ? BE ??", 0)
    ensures Compile("DE ? BE ??", 0) == Compiled([0xDE, 0, 0xBE, 0], "x?x?")
  {
    var bad: CString := "DE ? BE ?";
    assert !WellTerminated(bad, 8);
    assert !WellTerminated(bad, 5);
    var good: CString := "DE ? BE ??";
    assert Compile(good, 8) == Compiled([0], "?");
    assert Compile(good, 5) == Compiled([0xBE, 0], "x?");
    assert Compile(good, 3) == Compiled([0, 0xBE, 0], "?x?");
  }

  /** A parse that either succeeds with its output or is rejected (`ok` false) with what it had emitted. */
  datatype Parse = Parse(ok: bool, out: Compiled)

  /**
   * The paranoid checks on the character after the token at `i` (the terminator past the end):
   * after a '?' it is the terminator, a space or a '?'; after a hex digit it is none of these.
   */
  predicate TokenFollows(s: CString, i: nat)
    requires i < |s|
  {
    var next := CharAt(s, i + 1);
    if s[i] == '?' then next == '\0' || next == ' ' || next == '?'
    else next != '\0' && next != '?' && next != ' '
  }

  /**
   * The parse the compiler's own checks describe. A '?' may be followed only by the terminator,
   * a space or a second '?': before the terminator it is emitted and ends the pattern, otherwise
   * it consumes the character after it. A hex digit must be followed by a character that is
   * neither the terminator, a '?' nor a space. A pattern that breaks either rule is rejected.
   * Every token but a final lone '?' takes two characters, hence at most `(strlen + 1) / 2` tokens.
   */
  function IntendedParse(s: CString, i: nat): (p: Parse)
    requires i <= |s|
    ensures |p.out.bytes| == |p.out.mask|
    ensures 2 * |p.out.bytes| <= |s| - i + 1
    decreases |s| - i
  {
    if i == |s| then Parse(true, Compiled([], []))
    else if s[i] == ' ' then IntendedParse(s, i + 1)
    else if s[i] == '?' && i + 1 == |s| then Parse(true, Compiled([0], "?"))
    else if !TokenFollows(s, i) then Parse(false, Compiled([], []))
    else
      var rest := IntendedParse(s, i + 2);
      Parse(rest.ok, Compiled([TokenByte(s, i)] + rest.out.bytes, [MaskChar(s[i])] + rest.out.mask))
  }

  /** Wherever `PatternToBytes` stops on the terminator and the checks pass, the intended parse agrees with it. */
  lemma {:induction false} IntendedAgreesWhenTerminated(s: CString, i: nat)
    requires WellTerminated(s, i) && IntendedParse(s, i).ok
    ensures IntendedParse(s, i).out == Compile(s, i)
    decreases |s| - i
  {
    if i < |s| {
      if s[i] == ' ' {
        IntendedAgreesWhenTerminated(s, i + 1);
      } else {
        IntendedAgreesWhenTerminated(s, i + 2);
      }
    }
  }

  /** The tokens of an accepted pattern and the terminator fit in buffers of `(strlen + 1) / 2 + 1` bytes. */
  lemma IntendedBufferFits(s: CString)
    ensures |IntendedParse(s, 0).out.bytes| + 1 <= (|s| + 1) / 2 + 1
  {
  }

  /**
   * "DE ? BE ?" is accepted as intended: its trailing '?' is a wildcard, giving DE 00 BE 00 with
   * mask "x?x?". "? ?" gives two wildcards, which with the terminator need three bytes, one more
   * than the `strlen / 2 + 1` the callers allocate.
   */
  lemma IntendedExamples()
    ensures IntendedParse("DE ? BE ?", 0) == Parse(true, Compiled([0xDE, 0, 0xBE, 0], "x?x?"))
    ensures IntendedParse("? ?", 0) == Parse(true, Compiled([0, 0], "??"))
    ensures |IntendedParse("? ?", 0).out.bytes| + 1 > |"? ?"| / 2 + 1
    ensures !IntendedParse("DE A", 0).ok
    ensures !IntendedParse("D EF", 0).ok
    ensures !IntendedParse("?A", 0).ok
    ensures !IntendedParse("D?E", 0).ok
  {
    var s: CString := "DE ? BE ?";
    assert IntendedParse(s, 8) == Parse(true, Compiled([0], "?"));
    assert IntendedParse(s, 5) == Parse(true, Compiled([0xBE, 0], "x?"));
    assert IntendedParse(s, 3) == Parse(true, Compiled([0, 0xBE, 0], "?x?"));
    var t: CString := "? ?";
    assert IntendedParse(t, 2) == Parse(true, Compiled([0], "?"));
    var u: CString := "DE A";
    assert !IntendedParse(u, 3).ok;
    var v: CString := "D EF";
    assert !TokenFollows(v, 0);
    var w: CString := "?A";
    assert !TokenFollows(w, 0);
    var x: CString := "D?E";
    assert !TokenFollows(x, 0);
  }

  /**
   * From position `i` on, the intended parse yields what is left of `whole` once `written` of its
   * tokens are out.
   */
  ghost predicate Remaining(s: CString, i: nat, whole: Parse, written: nat)
  {
    i <= |s| && written <= |whole.out.bytes| && written <= |whole.out.mask| &&
    IntendedParse(s, i) == Parse(whole.ok, Compiled(whole.out.bytes[written..], whole.out.mask[written..]))
  }

  /** One step of the intended parse at position `i`: what the token there emits and where the rest resumes. */
  lemma IntendedStep(s: CString, i: nat, whole: Parse, written: nat)
    requires i < |s| && Remaining(s, i, whole, written)
    ensures s[i] == ' ' ==> Remaining(s, i + 1, whole, written)
    ensures s[i] == '?' && i + 1 == |s| ==>
      whole.ok && written < |whole.out.bytes| && written < |whole.out.mask| &&
      whole.out.bytes[written] == 0 && whole.out.mask[written] == '?' && Remaining(s, i + 1, whole, written + 1)
    ensures s[i] != ' ' && !(s[i] == '?' && i + 1 == |s|) && !TokenFollows(s, i) ==> !whole.ok
    ensures s[i] != ' ' && i + 1 < |s| && TokenFollows(s, i) ==>
      written < |whole.out.bytes| && written < |whole.out.mask| &&
      whole.out.bytes[written] == TokenByte(s, i) && whole.out.mask[written] == MaskChar(s[i]) &&
      Remaining(s, i + 2, whole, written + 1)
  {
    if s[i] != ' ' && i + 1 < |s| && TokenFollows(s, i) {
      var rest := IntendedParse(s, i + 2);
      assert whole.out.bytes[written..] == [TokenByte(s, i)] + rest.out.bytes;
      assert whole.out.mask[written..] == [MaskChar(s[i])] + rest.out.mask;
      assert whole.out.bytes[written + 1..] == whole.out.bytes[written..][1..];
      assert whole.out.mask[written + 1..] == whole.out.mask[written..][1..];
    } else if s[i] == '?' && i + 1 == |s| {
      assert whole.out.bytes[written..] == [0];
      assert whole.out.mask[written..] == "?";
      assert whole.out.bytes[written + 1..] == whole.out.bytes[written..][1..];
      assert whole.out.mask[written + 1..] == whole.out.mask[written..][1..];
    }
  }

  /** One token as the corrected compiler emits it: its byte, its mask character and the characters it takes. */
  datatype Token = Token(byte: uint8, maskChar: char, width: nat)

  /**
   * The token of the corrected compiler at `i`, applying the paranoid checks to the character
   * after it: none when they refuse it, a wildcard of one character before the terminator, and
   * otherwise the byte and mask character of a two-character token.
   */
  method ReadToken(pattern: CString, i: nat) returns (t: Option<Token>)
    requires i < |pattern| && pattern[i] != ' '
    ensures t.None? <==> !(pattern[i] == '?' && i + 1 == |pattern|) && !TokenFollows(pattern, i)
    ensures t.Some? && i + 1 == |pattern| ==> t.value == Token(0, '?', 1)
    ensures t.Some? && i + 1 < |pattern| ==> t.value == Token(TokenByte(pattern, i), MaskChar(pattern[i]), 2)
  {
    var next := CharAt(pattern, i + 1);
    CStringLength(pattern, i + 1);
    if pattern[i] == '?' {
      if next != '\0' && next != ' ' && next != '?' {
        return None;
      }
      return Some(Token(0, '?', if next != '\0' then 2 else 1));
    }
    if next == '\0' || next == '?' || next == ' ' {
      return None;
    }
    var value := CharToHexInt(pattern[i]) * 16 + CharToHexInt(pattern[i + 1]);
    return Some(Token(value as uint8, 'x', 2));
  }

  /**
   * The corrected compiler: a wildcard directly before the terminator is emitted and ends the
   * pattern instead of stepping over it, a token the paranoid checks refuse rejects the pattern,
   * and the buffers hold `(strlen + 1) / 2 + 1` bytes. It never reads past the terminator, writes the
   * intended parse, and agrees with `PatternToBytes` wherever that one stops on the terminator.
   */
  method PatternToBytesChecked(pattern: CString, outBytes: array<uint8>, outMask: array<char>) returns (r: Option<nat>)
    requires (|pattern| + 1) / 2 + 1 <= outBytes.Length
    requires (|pattern| + 1) / 2 + 1 <= outMask.Length
    modifies outBytes, outMask
    ensures r.None? <==> !IntendedParse(pattern, 0).ok
    ensures r.Some? ==> r.value == |IntendedParse(pattern, 0).out.bytes|
    ensures r.Some? ==> outBytes[..r.value] == IntendedParse(pattern, 0).out.bytes && outBytes[r.value] == 0
    ensures r.Some? ==> outMask[..r.value] == IntendedParse(pattern, 0).out.mask && outMask[r.value] == '\0'
  {
    ghost var whole := IntendedParse(pattern, 0);
    ghost var wantBytes, wantMask := whole.out.bytes, whole.out.mask;
    var i := 0;
    var n := 0;
    while CharAt(pattern, i) != '\0'
      invariant Remaining(pattern, i, whole, n)
      invariant forall j :: 0 <= j < n ==> outBytes[j] == wantBytes[j] && outMask[j] == wantMask[j]
      decreases |pattern| - i
    {
      CStringLength(pattern, i);
      CStringLength(pattern, i + 1);
      IntendedStep(pattern, i, whole, n);
      if pattern[i] != ' ' {
        var token := ReadToken(pattern, i);
        if token.None? {
          return None;
        }
        outBytes[n] := token.value.byte;
        outMask[n] := token.value.maskChar;
        n := n + 1;
        i := i + token.value.width - 1;
      }
      i := i + 1;
    }
    CStringLength(pattern, i);
    assert IntendedParse(pattern, i).out.bytes == [];
    outBytes[n] := 0;
    outMask[n] := '\0';
    assert outBytes[..n] == whole.out.bytes && outMask[..n] == whole.out.mask;
    r := Some(n);
  }
}

=== FILE: pattern_scanner.dfy ===
/**
 * The two region scanners of the signature scanner, `MEM::FindPatternEx` (first hit) and
 * `MEM::FindPatternAllOccurrencesEx` (every hit).
 *
 * A region is the sequence of bytes starting at the region's start address; a hit is reported as
 * its offset from that start (the source returns `pRegionStart + offset`). A signature is the byte
 * buffer, the byte count and an optional mask (the source allows a null mask pointer): a position
 * of the window matches when the mask holds '?' there or the region byte equals the pattern byte.
 *
 * Both scanners use the same skip rule. The cursor stops at the first window position whose first
 * pattern byte matches, compares the rest from index 1 on, and on a mismatch at pattern index
 * `m >= 1` moves the cursor forward by `m` (by 1 when the first byte already mismatches). The loop
 * runs while `cursor < size - count`, so the window starting at `size - count` is never tried.
 */
module PatternScanner {
  import opened Types

  /** The pattern bytes, how many of them to compare, and the optional mask. */
  datatype Signature = Signature(bytes: seq<uint8>, count: nat, mask: Option<seq<char>>)

  /**
   * What both scanners read of a signature: at least one byte (with a count of 0 the source would
   * compare index 1 of a one-element pattern), and `count` entries of bytes and mask.
   */
  predicate WellFormed(sig: Signature)
  {
    1 <= sig.count <= |sig.bytes| && (sig.mask.Some? ==> sig.count <= |sig.mask.value|)
  }

  /** Pattern index `i` is a wildcard: the mask is present and holds '?' there. */
  predicate Wildcard(sig: Signature, i: nat)
    requires WellFormed(sig) && i < sig.count
  {
    sig.mask.Some? && sig.mask.value[i] == '?'
  }

  /** Pattern index `i` accepts the region byte at `pos + i`. */
  predicate ByteMatches(region: seq<uint8>, pos: nat, sig: Signature, i: nat)
    requires WellFormed(sig) && i < sig.count && pos + i < |region|
  {
    Wildcard(sig, i) || region[pos + i] == sig.bytes[i]
  }

  /** The whole window at `pos` lies in the region and every pattern index accepts its byte. */
  predicate MatchAt(region: seq<uint8>, pos: nat, sig: Signature)
    requires WellFormed(sig)
  {
    pos + sig.count <= |region| && forall i :: 0 <= i < sig.count ==> ByteMatches(region, pos, sig, i)
  }

  /** The first pattern index from `i` on that rejects its byte of the window at `pos`, or `count` if there is none. */
  function FirstMismatch(region: seq<uint8>, pos: nat, sig: Signature, i: nat): (j: nat)
    requires WellFormed(sig) && pos + sig.count <= |region| && i <= sig.count
    ensures i <= j <= sig.count
    ensures forall k :: i <= k < j ==> ByteMatches(region, pos, sig, k)
    ensures j < sig.count ==> !ByteMatches(region, pos, sig, j)
    decreases sig.count - i
  {
    if i == sig.count then sig.count
    else if !ByteMatches(region, pos, sig, i) then i
    else FirstMismatch(region, pos, sig, i + 1)
  }

  /** The index where every earlier one matches and which itself mismatches (or is the count) is the first mismatch. */
  lemma {:induction false} FirstMismatchIs(region: seq<uint8>, pos: nat, sig: Signature, i: nat, j: nat)
    requires WellFormed(sig) && pos + sig.count <= |region| && i <= j <= sig.count
    requires forall k :: i <= k < j ==> ByteMatches(region, pos, sig, k)
    requires j < sig.count ==> !ByteMatches(region, pos, sig, j)
    ensures FirstMismatch(region, pos, sig, i) == j
    decreases j - i
  {
    if i < j {
      FirstMismatchIs(region, pos, sig, i + 1, j);
    }
  }

  /**
   * The hits the skip rule reports from cursor `cur` on, in scanning order: windows are tried while
   * they end before the region's last byte; a full match is a hit and the cursor moves by 1, a
   * mismatch at pattern index `j` moves it by `j` (by 1 when `j` is 0).
   */
  function SkipHits(region: seq<uint8>, sig: Signature, cur: nat): seq<nat>
    requires WellFormed(sig)
    decreases |region| - cur
  {
    if cur + sig.count >= |region| then []
    else
      var j := FirstMismatch(region, cur, sig, 0);
      if j == sig.count then [cur] + SkipHits(region, sig, cur + 1)
      else SkipHits(region, sig, cur + (if j == 0 then 1 else j))
  }

  /**
   * Every hit of the skip rule is a genuine match at or after the cursor whose window ends before
   * the last byte of the region, and the hits strictly ascend.
   */
  lemma {:induction false} SkipHitsSound(region: seq<uint8>, sig: Signature, cur: nat)
    requires WellFormed(sig)
    ensures forall k :: 0 <= k < |SkipHits(region, sig, cur)| ==>
      cur <= SkipHits(region, sig, cur)[k] && SkipHits(region, sig, cur)[k] + sig.count < |region| &&
      MatchAt(region, SkipHits(region, sig, cur)[k], sig)
    ensures forall a, b :: 0 <= a < b < |SkipHits(region, sig, cur)| ==>
      SkipHits(region, sig, cur)[a] < SkipHits(region, sig, cur)[b]
    decreases |region| - cur
  {
    if cur + sig.count < |region| {
      var j := FirstMismatch(region, cur, sig, 0);
      if j == sig.count {
        SkipHitsSound(region, sig, cur + 1);
        var rest := SkipHits(region, sig, cur + 1);
        assert SkipHits(region, sig, cur) == [cur] + rest;
        assert MatchAt(region, cur, sig);
        assert forall k :: 1 <= k < |rest| + 1 ==> ([cur] + rest)[k] == rest[k - 1];
      } else {
        SkipHitsSound(region, sig, cur + (if j == 0 then 1 else j));
      }
    }
  }

  /** The first element of a hit list, if any. */
  function FirstHit(hits: seq<nat>): Option<nat>
  {
    if hits == [] then None else Some(hits[0])
  }

  /**
   * `MEM::FindPatternEx`: the first hit of the skip rule, as an offset into the region, or none.
   * A hit is a genuine match whose window ends before the region's last byte; with
   * `count >= |region|` there is no hit at all.
   */
  method FindPatternEx(region: seq<uint8>, sig: Signature) returns (r: Option<nat>)
    requires WellFormed(sig)
    ensures r == FirstHit(SkipHits(region, sig, 0))
    ensures r.Some? ==> MatchAt(region, r.value, sig) && r.value + sig.count < |region|
  {
    SkipHitsSound(region, sig, 0);
    var cur: nat := 0;
    while cur + sig.count < |region|
      invariant SkipHits(region, sig, cur) == SkipHits(region, sig, 0)
      decreases |region| - cur
    {
      if (sig.mask.Some? && sig.mask.value[0] == '?') || region[cur] == sig.bytes[0] {
        if sig.count == 1 {
          return Some(cur);
        }
        var compared := 0;
        while (sig.mask.Some? && sig.mask.value[compared + 1] == '?') || region[cur + compared + 1] == sig.bytes[compared + 1]
          invariant compared < sig.count - 1
          invariant FirstMismatch(region, cur, sig, 0) == FirstMismatch(region, cur, sig, compared + 1)
          decreases sig.count - compared
        {
          compared := compared + 1;
          if compared == sig.count - 1 {
            return Some(cur);
          }
        }
        cur := cur + compared;
      }
      cur := cur + 1;
    }
    return None;
  }

  /**
   * One step of the skip rule at a window that fits: a full match is a hit and the cursor moves to
   * `next`, one past it; a mismatch at pattern index `j` reports nothing and moves it by `j`, or by
   * 1 when `j` is 0.
   */
  lemma SkipHitsAdvance(region: seq<uint8>, sig: Signature, cur: nat, next: nat)
    requires WellFormed(sig) && cur + sig.count < |region|
    requires var j := FirstMismatch(region, cur, sig, 0);
      next == cur + (if j == 0 || j == sig.count then 1 else j)
    ensures FirstMismatch(region, cur, sig, 0) == sig.count ==>
      SkipHits(region, sig, cur) == [cur] + SkipHits(region, sig, next)
    ensures FirstMismatch(region, cur, sig, 0) < sig.count ==>
      SkipHits(region, sig, cur) == SkipHits(region, sig, next)
  {
  }

  /**
   * `MEM::FindPatternAllOccurrencesEx`: every hit of the skip rule, in ascending order. Its first
   * element is the hit `FindPatternEx` reports, since both follow `SkipHits`.
   */
  method FindPatternAllOccurrencesEx(region: seq<uint8>, sig: Signature) returns (hits: seq<nat>)
    requires WellFormed(sig)
    ensures hits == SkipHits(region, sig, 0)
  {
    hits := [];
    var cur: nat := 0;
    while cur + sig.count < |region|
      invariant hits + SkipHits(region, sig, cur) == SkipHits(region, sig, 0)
      decreases |region| - cur
    {
      ghost var start := cur;
      ghost var mismatch: nat := 0;
      var sequenceMatch := true;
      if (sig.mask.Some? && sig.mask.value[0] == '?') || region[cur] == sig.bytes[0] {
        var i := 1;
        while i < sig.count
          invariant 1 <= i <= sig.count && cur == start
          invariant forall k :: 0 <= k < i ==> ByteMatches(region, start, sig, k)
        {
          if (sig.mask.None? || sig.mask.value[i] != '?') && region[cur + i] != sig.bytes[i] {
            mismatch := i;
            cur := cur + (i - 1);
            sequenceMatch := false;
            break;
          }
          i := i + 1;
        }
        if sequenceMatch {
          mismatch := sig.count;
        }
      } else {
        sequenceMatch := false;
      }
      FirstMismatchIs(region, start, sig, 0, mismatch);
      SkipHitsAdvance(region, sig, start, cur + 1);
      if sequenceMatch {
        Regroup(hits, [cur], SkipHits(region, sig, cur + 1), SkipHits(region, sig, 0));
        hits := hits + [cur];
      }
      cur := cur + 1;
    }
  }

  /**
   * A proof step only, not part of the scanner: moving the hits of one step from the pending part
   * to the reported part keeps the whole list.
   */
  lemma Regroup(done: seq<nat>, found: seq<nat>, rest: seq<nat>, all: seq<nat>)
    requires done + (found + rest) == all
    ensures (done + found) + rest == all
  {
    assert done + (found + rest) == (done + found) + rest;
  }

  /** The reference: every position in `[lo, hi)` whose window matches, in ascending order. */
  function Matches(region: seq<uint8>, sig: Signature, lo: nat, hi: nat): (ps: seq<nat>)
    requires WellFormed(sig)
    ensures forall k :: 0 <= k < |ps| ==> lo <= ps[k] < hi && MatchAt(region, ps[k], sig)
    ensures forall p :: lo <= p < hi && MatchAt(region, p, sig) ==> p in ps
    decreases hi - lo
  {
    if lo >= hi then []
    else (if MatchAt(region, lo, sig) then [lo] else []) + Matches(region, sig, lo + 1, hi)
  }

  /**
   * For a one-byte signature the skip rule never skips: its hits are exactly the matching
   * positions below `|region| - 1`, the last one excluded.
   */
  lemma {:induction false} SingleByteHitsAreAllMatches(region: seq<uint8>, sig: Signature, cur: nat)
    requires WellFormed(sig) && sig.count == 1
    ensures |region| >= 1 ==> SkipHits(region, sig, cur) == Matches(region, sig, cur, |region| - 1)
    decreases |region| - cur
  {
    if |region| >= 1 && cur + 1 < |region| {
      SingleByteHitsAreAllMatches(region, sig, cur + 1);
      var j := FirstMismatch(region, cur, sig, 0);
      assert MatchAt(region, cur, sig) <==> j == 1;
    }
  }

  /**
   * The skip rule is not complete. In the region AA AA AA AB 00 the pattern AA AA AB matches at
   * offset 1, but the window at 0 mismatches at index 2 and the cursor jumps to 2, past it.
   */
  lemma SkipRuleMissesMatch()
    ensures var region: seq<uint8> := [0xAA, 0xAA, 0xAA, 0xAB, 0x00];
      var sig := Signature([0xAA, 0xAA, 0xAB], 3, Some("xxx"));
      WellFormed(sig) && MatchAt(region, 1, sig) && SkipHits(region, sig, 0) == []
  {
    var region: seq<uint8> := [0xAA, 0xAA, 0xAA, 0xAB, 0x00];
    var sig := Signature([0xAA, 0xAA, 0xAB], 3, Some("xxx"));
    assert !ByteMatches(region, 0, sig, 2);
    assert FirstMismatch(region, 0, sig, 0) == 2;
    assert SkipHits(region, sig, 2) == [];
    assert forall i :: 0 <= i < 3 ==> ByteMatches(region, 1, sig, i);
  }

  /** The last window is never tried: a one-byte region holding the one-byte pattern has no hit. */
  lemma LastWindowMissed()
    ensures var sig := Signature([0x90], 1, None);
      WellFormed(sig) && MatchAt([0x90], 0, sig) && SkipHits([0x90], sig, 0) == []
  {
    var sig := Signature([0x90], 1, None);
    assert ByteMatches([0x90], 0, sig, 0);
  }

  /**
   * The scan as evidently intended: the leftmost matching window, the last one included, or none
   * when no window matches.
   */
  method FindFirstMatch(region: seq<uint8>, sig: Signature) returns (r: Option<nat>)
    requires WellFormed(sig)
    ensures r.Some? ==> MatchAt(region, r.value, sig)
    ensures r.Some? ==> forall p :: 0 <= p < r.value ==> !MatchAt(region, p, sig)
    ensures r.None? ==> forall p :: !MatchAt(region, p, sig)
  {
    var cur := 0;
    while cur + sig.count <= |region|
      invariant forall p :: 0 <= p < cur ==> !MatchAt(region, p, sig)
      decreases |region| - cur
    {
      var i := 0;
      while i < sig.count && ((sig.mask.Some? && sig.mask.value[i] == '?') || region[cur + i] == sig.bytes[i])
        invariant i <= sig.count
        invariant forall k :: 0 <= k < i ==> ByteMatches(region, cur, sig, k)
      {
        i := i + 1;
      }
      if i == sig.count {
        return Some(cur);
      }
      assert !ByteMatches(region, cur, sig, i);
      cur := cur + 1;
    }
    return None;
  }
}

=== FILE: pe_image.dfy ===
/**
 * The parts of a loaded PE image that the export resolver and the section lookup read, already
 * parsed: the DOS header's `e_magic`, the NT headers' signature (found at `e_lfanew`), the export
 * data directory entry, the export directory's three tables with the names they point at, the
 * section table, and the image bytes. Offsets are relative virtual addresses (RVAs) from the image
 * base, as in the Microsoft PE/COFF specification.
 */
module PeImage {
  import opened Types
  import opened Crt

  /** "MZ", read as a little-endian 16-bit word. */
  const IMAGE_DOS_SIGNATURE: nat := 0x5A4D
  /** "PE\0\0", read as a little-endian 32-bit word. */
  const IMAGE_NT_SIGNATURE: nat := 0x0000_4550
  /** Section names are fixed fields of 8 bytes, not always terminated. */
  const IMAGE_SIZEOF_SHORT_NAME: nat := 8

  /** One entry of the section table (section 4 of the PE/COFF specification). */
  datatype SectionHeader = SectionHeader(name: seq<char>, virtualAddress: nat, sizeOfRawData: nat)

  /**
   * The export directory table and what its RVAs point at (section 6.3 of the PE/COFF
   * specification): `NumberOfNames`, the names the name pointer table points at, the ordinal
   * table, and the export address table of function RVAs.
   */
  datatype ExportDirectory = ExportDirectory(
    numberOfNames: nat,
    names: seq<CString>,
    nameOrdinals: seq<nat>,
    functions: seq<nat>)

  /** A loaded image as the lookups see it; `memory` is the `SizeOfImage` bytes from the base. */
  datatype Image = Image(
    eMagic: nat,
    ntSignature: nat,
    exportDirectoryRva: nat,
    exportDirectorySize: nat,
    exports: ExportDirectory,
    sections: seq<SectionHeader>,
    memory: seq<uint8>)

  /** Both signatures are present. */
  predicate HeadersValid(img: Image)
  {
    img.eMagic == IMAGE_DOS_SIGNATURE && img.ntSignature == IMAGE_NT_SIGNATURE
  }

  /** The export data directory entry is present: both its RVA and its size are non-zero. */
  predicate HasExports(img: Image)
  {
    img.exportDirectorySize != 0 && img.exportDirectoryRva != 0
  }

  /**
   * The tables are as long as `NumberOfNames` says and every ordinal indexes the export address
   * table: what the binary search reads.
   */
  predicate ExportTablesWellFormed(dir: ExportDirectory)
  {
    dir.numberOfNames <= |dir.names| && dir.numberOfNames <= |dir.nameOrdinals| &&
    forall k :: 0 <= k < dir.numberOfNames ==> dir.nameOrdinals[k] < |dir.functions|
  }

  /** The name pointer table is in strictly ascending order, as section 6.3.3 of the PE/COFF specification requires. */
  predicate SortedNames(dir: ExportDirectory)
    requires ExportTablesWellFormed(dir)
  {
    forall a, b :: 0 <= a < b < dir.numberOfNames ==> StringLess(dir.names[a], dir.names[b])
  }

  /** The function RVA the `k`-th name leads to through the ordinal table. */
  function FunctionRva(dir: ExportDirectory, k: nat): (rva: nat)
    requires ExportTablesWellFormed(dir) && k < dir.numberOfNames
    ensures rva in dir.functions
  {
    dir.functions[dir.nameOrdinals[k]]
  }

  /**
   * A function RVA inside the export directory's own range is a forwarder: it points at a
   * "DLL.name" string rather than at code (section 6.3.2 of the PE/COFF specification).
   */
  predicate IsForwarder(img: Image, rva: nat)
  {
    img.exportDirectoryRva <= rva && rva - img.exportDirectoryRva < img.exportDirectorySize
  }

  /** `StringCompare` orders the other way round when its arguments are swapped. */
  lemma CompareMeansLess(a: CString, b: CString)
    ensures StringCompare(a, b) > 0 <==> StringLess(b, a)
  {
    StringCompareAntisymmetric(a, b);
  }

  /**
   * `MEM::GetExportAddress`: looks `name` up by binary search over the half-open range
   * `[left, right)` of the name pointer table and answers the address of the function its ordinal
   * leads to. It answers null (0) for a bad signature, a missing export directory, an absent name
   * or a forwarder. Any address it answers belongs to an entry carrying exactly `name`; on sorted
   * names (as the format requires) it finds every name present.
   */
  method GetExportAddress(base: Addr, img: Image, name: CString) returns (r: Addr)
    requires HeadersValid(img) && HasExports(img) ==> ExportTablesWellFormed(img.exports)
    ensures !HeadersValid(img) || !HasExports(img) ==> r == NULL
    ensures r != NULL ==> (HeadersValid(img) && HasExports(img) &&
      exists k :: 0 <= k < img.exports.numberOfNames && img.exports.names[k] == name &&
        !IsForwarder(img, FunctionRva(img.exports, k)) && r == base + FunctionRva(img.exports, k))
    ensures (HeadersValid(img) && HasExports(img) &&
      forall k :: 0 <= k < img.exports.numberOfNames ==> img.exports.names[k] != name) ==> r == NULL
    ensures HeadersValid(img) && HasExports(img) && SortedNames(img.exports) ==>
      forall k :: 0 <= k < img.exports.numberOfNames && img.exports.names[k] == name ==>
        r == (if IsForwarder(img, FunctionRva(img.exports, k)) then NULL else base + FunctionRva(img.exports, k))
  {
    if img.eMagic != IMAGE_DOS_SIGNATURE {
      return NULL;
    }
    if img.ntSignature != IMAGE_NT_SIGNATURE {
      return NULL;
    }
    var directorySize := img.exportDirectorySize;
    var directoryAddress := img.exportDirectoryRva;
    if directorySize == 0 || directoryAddress == 0 {
      return NULL;
    }
    var dir := img.exports;
    ghost var sorted := SortedNames(dir);
    var right := dir.numberOfNames;
    var left := 0;
    while right != left
      invariant left <= right <= dir.numberOfNames
      invariant sorted ==> forall k :: 0 <= k < left ==> StringLess(dir.names[k], name)
      invariant sorted ==> forall k :: right <= k < dir.numberOfNames ==> StringLess(name, dir.names[k])
      decreases right - left
    {
      var middle := left + (right - left) / 2;
      var result := StringCompare(name, dir.names[middle]);
      if result == 0 {
        var functionRva := dir.functions[dir.nameOrdinals[middle]];
        if functionRva >= directoryAddress && functionRva - directoryAddress < directorySize {
          // A forwarded export is not supported.
          break;
        }
        return base + functionRva;
      }
      CompareMeansLess(name, dir.names[middle]);
      if result > 0 {
        if sorted {
          forall k | 0 <= k <= middle
            ensures StringLess(dir.names[k], name)
          {
            if k < middle {
              StringLessTransitive(dir.names[k], dir.names[middle], name);
            }
          }
        }
        left := middle + 1;
      } else {
        StringCompareAntisymmetric(name, dir.names[middle]);
        if sorted {
          forall k | middle <= k < dir.numberOfNames
            ensures StringLess(name, dir.names[k])
          {
            if k > middle {
              StringLessTransitive(name, dir.names[middle], dir.names[k]);
            }
          }
        }
        right := middle;
      }
    }
    return NULL;
  }

  /** The name field of a section matches `name` as `StringCompareN` with `IMAGE_SIZEOF_SHORT_NAME` sees it. */
  predicate SectionNameMatches(name: CString, section: SectionHeader)
  {
    EqualUpTo(name, section.name, 0, IMAGE_SIZEOF_SHORT_NAME)
  }

  /** The first section from index `i` on whose name matches, if any. */
  function FindSection(sections: seq<SectionHeader>, name: CString, i: nat): (r: Option<nat>)
    requires i <= |sections|
    ensures r.Some? ==> i <= r.value < |sections| && SectionNameMatches(name, sections[r.value])
    ensures r.Some? ==> forall j :: i <= j < r.value ==> !SectionNameMatches(name, sections[j])
    ensures r.None? ==> forall j :: i <= j < |sections| ==> !SectionNameMatches(name, sections[j])
    decreases |sections| - i
  {
    if i == |sections| then None
    else if SectionNameMatches(name, sections[i]) then Some(i)
    else FindSection(sections, name, i + 1)
  }

  /**
   * A name shorter than the field matches exactly the sections whose name field holds it followed
   * by a terminator; a longer one is compared on its first 8 characters only.
   */
  lemma SectionNameMatchMeaning(name: CString, section: SectionHeader)
    ensures SectionNameMatches(name, section) <==>
      forall k :: 0 <= k < IMAGE_SIZEOF_SHORT_NAME && k <= |name| ==> CharAt(section.name, k) == CharAt(name, k)
  {
    EqualUpToMeaning(name, section.name, 0, IMAGE_SIZEOF_SHORT_NAME);
  }

  /** The `std::uint8_t**` out-parameter of `GetSectionInfo`. */
  class AddrCell {
    var value: Addr
    constructor(v: Addr)
      ensures value == v
    {
      value := v;
    }
  }

  /** The `std::size_t*` out-parameter of `GetSectionInfo`. */
  class SizeCell {
    var value: nat
    constructor(v: nat)
      ensures value == v
    {
      value := v;
    }
  }

  /**
   * `MEM::GetSectionInfo`: finds the first section whose name matches on at most 8 characters
   * and reports its start address and raw size through whichever out-parameters are non-null.
   * On a bad signature or when no section matches it answers false and writes nothing.
   */
  method GetSectionInfo(base: Addr, img: Image, name: CString, sectionStart: AddrCell?, sectionSize: SizeCell?)
    returns (found: bool)
    modifies sectionStart, sectionSize
    ensures found <==> HeadersValid(img) && FindSection(img.sections, name, 0).Some?
    ensures found && sectionStart != null ==>
      sectionStart.value == base + img.sections[FindSection(img.sections, name, 0).value].virtualAddress
    ensures found && sectionSize != null ==>
      sectionSize.value == img.sections[FindSection(img.sections, name, 0).value].sizeOfRawData
    ensures !found && sectionStart != null ==> sectionStart.value == old(sectionStart.value)
    ensures !found && sectionSize != null ==> sectionSize.value == old(sectionSize.value)
  {
    if img.eMagic != IMAGE_DOS_SIGNATURE {
      return false;
    }
    if img.ntSignature != IMAGE_NT_SIGNATURE {
      return false;
    }
    var i := 0;
    while i < |img.sections|
      invariant i <= |img.sections|
      invariant FindSection(img.sections, name, i) == FindSection(img.sections, name, 0)
    {
      var section := img.sections[i];
      if EqualUpTo(name, section.name, 0, IMAGE_SIZEOF_SHORT_NAME) {
        if sectionStart != null {
          sectionStart.value := base + section.virtualAddress;
        }
        if sectionSize != null {
          sectionSize.value := section.sizeOfRawData;
        }
        return true;
      }
      i := i + 1;
    }
    return false;
  }
}

=== FILE: types.dfy ===
/** Basic machine types shared by the signature scanner and the export/loader lookups. */
module Types {

  /** An unsigned byte (`std::uint8_t`). */
  newtype uint8 = x: int | 0 <= x < 0x100

  /** An address in the process; 0 plays the role of `nullptr`. */
  type Addr = nat

  const NULL: Addr := 0

  /** The characters of a NUL-terminated C string, without the terminator itself. */
  type CString = s: seq<char> | '\0' !in s

  datatype Option<T> = None | Some(value: T)

  /** The character a C string pointer sees at offset `i`: the terminator sits just past the end. */
  function CharAt(s: seq<char>, i: nat): char
  {
    if i < |s| then s[i] else '\0'
  }

  /** `strlen` of a C string is the number of characters before the terminator. */
  lemma {:induction false} CStringLength(s: CString, i: nat)
    requires i <= |s|
    ensures CharAt(s, i) == '\0' <==> i == |s|
  {
    if i < |s| {
      assert s[i] in s;
    }
  }
}

=== FILE: utl_buffer.dfy ===
/**
 * The cursor, flag and tab state of `CUtlBuffer`: a block of memory holding the logical bytes
 * `[offset, offset + |memory|)`, a get cursor and a put cursor, the most ever put (`maxPut`),
 * the error bits, the flag bits and the pretty-printing tab depth.
 *
 * `CheckGet`, `CheckPut` and `AddNullTermination` are only declared in the header; they are
 * modelled by nondeterministic bodies under weak contracts, stated with each of them.
 */
module UtlBuffer {
  import opened Types

  /** `size_t` is 64 bits wide; `m_nMaxPut = -1` stores its all-ones value. */
  const SIZE_MAX: nat := 0xFFFF_FFFF_FFFF_FFFF
  /** `m_nTab` is a 32-bit `int`. */
  const INT_MIN: int := -0x8000_0000
  const INT_MAX: int := 0x7FFF_FFFF

  /** `BufferFlags_t`. */
  const TEXT_BUFFER: bv8 := 0x1
  const EXTERNAL_GROWABLE: bv8 := 0x2
  const CONTAINS_CRLF: bv8 := 0x4
  const READ_ONLY: bv8 := 0x8
  const AUTO_TABS_DISABLED: bv8 := 0x10

  /** The error bits of `m_Error`; `GET_OVERFLOW` is the highest one in use. */
  const PUT_OVERFLOW: bv8 := 0x1
  const GET_OVERFLOW: bv8 := 0x2

  /** The byte `PutTabs` puts. */
  const TAB: uint8 := 9
  /** The byte `WasLastCharacterCR` looks for ('\n'). */
  const NEWLINE: uint8 := 10

  /** Bit `k` of a flags or error byte, counting from the least significant. */
  predicate Bit(b: bv8, k: nat)
    requires k < 8
  {
    (b >> k) & 1 == 1
  }

  /** 256 to the power `width`: the number of values a `width`-byte integer holds. */
  function Pow256(width: nat): (p: nat)
    ensures p >= 1
  {
    if width == 0 then 1 else 256 * Pow256(width - 1)
  }

  /** `mem` with `bytes` stored from index `at`: those bytes are there and every other byte is kept. */
  function Splice(mem: seq<uint8>, at: nat, bytes: seq<uint8>): (r: seq<uint8>)
    requires at + |bytes| <= |mem|
    ensures |r| == |mem|
    ensures r[at .. at + |bytes|] == bytes
    ensures forall i :: 0 <= i < |mem| && (i < at || at + |bytes| <= i) ==> r[i] == mem[i]
  {
    mem[..at] + bytes + mem[at + |bytes|..]
  }

  /** The `width` bytes of `v` in memory order on a little-endian machine, low byte first. */
  function LittleEndian(v: nat, width: nat): (bytes: seq<uint8>)
    requires v < Pow256(width)
    ensures |bytes| == width
  {
    if width == 0 then []
    else [(v % 256) as uint8] + LittleEndian(v / 256, width - 1)
  }

  /** The integer a little-endian load of `bytes` reads; it fits in `|bytes|` bytes. */
  function FromLittleEndian(bytes: seq<uint8>): (v: nat)
    ensures v < Pow256(|bytes|)
  {
    if bytes == [] then 0
    else
      var rest := FromLittleEndian(bytes[1..]);
      assert bytes[0] as nat + 256 * rest <= 255 + 256 * (Pow256(|bytes| - 1) - 1);
      bytes[0] as nat + 256 * rest
  }

  /** Loading what a store wrote gives the stored value back. */
  lemma {:induction false} LittleEndianRoundTrip(v: nat, width: nat)
    requires v < Pow256(width)
    ensures FromLittleEndian(LittleEndian(v, width)) == v
  {
    if width > 0 {
      LittleEndianRoundTrip(v / 256, width - 1);
      assert LittleEndian(v, width)[1..] == LittleEndian(v / 256, width - 1);
    }
  }

  class Buffer {
    /** `m_Memory`: the allocation, holding logical positions `offset ..`. */
    var memory: seq<uint8>
    /** `m_Get`, `m_Put`, `m_nMaxPut`, `m_nOffset`: `size_t` cursors and bounds. */
    var getIndex: nat
    var putIndex: nat
    var maxPut: nat
    var offset: nat
    /** `m_Error`, `m_Flags`: bytes of bits. */
    var error: bv8
    var flags: bv8
    /** `m_nTab`: the pretty-printing tab depth. */
    var tab: int
    /** Every put of a binary value that was attempted, in order, as the bytes it would store. */
    ghost var puts: seq<seq<uint8>>

    /** The fields hold values of their C types, and only the two overflow bits are ever set in `m_Error`. */
    ghost predicate Valid()
      reads this
    {
      getIndex <= SIZE_MAX && putIndex <= SIZE_MAX && maxPut <= SIZE_MAX &&
      offset + |memory| <= SIZE_MAX && INT_MIN <= tab <= INT_MAX &&
      error & !(PUT_OVERFLOW | GET_OVERFLOW) == 0
    }

    /** `size` bytes can be read at the get cursor: they are in memory and below the most ever put. */
    predicate GetWindow(size: nat)
      reads this
    {
      offset <= getIndex && getIndex - offset + size <= |memory| && getIndex + size <= maxPut
    }

    /** `size` bytes can be stored at the put cursor. */
    predicate PutWindow(size: nat)
      reads this
    {
      offset <= putIndex && putIndex - offset + size <= |memory|
    }

    /** `IsText`: bit 0 of the flags. */
    function IsText(): (r: bool)
      reads this
      ensures r <==> Bit(flags, 0)
    {
      flags & TEXT_BUFFER != 0
    }

    /** `IsGrowable`: bit 1 of the flags. */
    function IsGrowable(): (r: bool)
      reads this
      ensures r <==> Bit(flags, 1)
    {
      flags & EXTERNAL_GROWABLE != 0
    }

    /** `IsReadOnly`: bit 3 of the flags. */
    function IsReadOnly(): (r: bool)
      reads this
      ensures r <==> Bit(flags, 3)
    {
      flags & READ_ONLY != 0
    }

    /** `ContainsCRLF`: only a text buffer (bit 0) can have bit 2 count. */
    function ContainsCRLF(): (r: bool)
      reads this
      ensures r <==> Bit(flags, 0) && Bit(flags, 2)
      ensures r ==> IsText()
    {
      IsText() && flags & CONTAINS_CRLF != 0
    }

    /** `IsValid`: neither a get nor a put has overflowed. */
    function IsValid(): (r: bool)
      reads this
      requires Valid()
      ensures r <==> !Bit(error, 0) && !Bit(error, 1)
    {
      error == 0
    }

    /**
     * `GetBytesRemaining`: `m_nMaxPut - m_Get` in `size_t` arithmetic. It is the distance to the
     * most ever put while the get cursor is behind it, and wraps around past it.
     */
    function GetBytesRemaining(): (r: nat)
      reads this
      requires Valid()
      ensures r <= SIZE_MAX
      ensures getIndex <= maxPut ==> r == maxPut - getIndex
      ensures getIndex > maxPut ==> r == SIZE_MAX + 1 - (getIndex - maxPut)
    {
      (maxPut - getIndex) % (SIZE_MAX + 1)
    }

    /**
     * `WasLastCharacterCR`: the byte before the put cursor is '\n' in a text buffer. A binary buffer
     * or an empty put side answers false without reading memory.
     */
    function WasLastCharacterCR(): (r: bool)
      reads this
      requires IsText() && putIndex != 0 ==> offset < putIndex <= offset + |memory|
      ensures !IsText() || putIndex == 0 ==> !r
      ensures IsText() && putIndex != 0 ==> (r <==> memory[putIndex - 1 - offset] == NEWLINE)
    {
      if !IsText() || putIndex == 0 then false
      else memory[putIndex - 1 - offset] == NEWLINE
    }

    /**
     * `CheckGet`, declared only: whether `size` bytes can be read at the get cursor. When it
     * answers yes they can; the error bits only accumulate.
     */
    method CheckGet(size: nat) returns (ok: bool)
      requires Valid()
      modifies this`error
      ensures Valid()
      ensures ok ==> GetWindow(size)
      ensures error & old(error) == old(error)
    {
      ok :| !ok || GetWindow(size);
    }

    /**
     * `CheckPut`, declared only: whether `size` bytes can be stored at the put cursor, possibly
     * after growing the memory (keeping its contents). A refusal changes no memory.
     */
    method CheckPut(size: nat) returns (ok: bool)
      requires Valid()
      modifies this`memory, this`error
      ensures Valid()
      ensures ok ==> PutWindow(size)
      ensures !ok ==> memory == old(memory)
      ensures |old(memory)| <= |memory| && memory[..|old(memory)|] == old(memory)
      ensures error & old(error) == old(error)
    {
      ok :| !ok || PutWindow(size);
    }

    /**
     * `AddNullTermination`, declared only: after a put ending at `nPut`, raises the most ever put
     * to `nPut` when that is beyond it, and may then store a 0 at `nPut` (never in a read-only
     * buffer). A put that does not go beyond the most ever put changes nothing.
     */
    method AddNullTermination(nPut: nat)
      requires Valid() && nPut <= SIZE_MAX
      modifies this`memory, this`error, this`maxPut
      ensures Valid()
      ensures nPut <= old(maxPut) ==> maxPut == old(maxPut) && memory == old(memory) && error == old(error)
      ensures nPut > old(maxPut) ==> maxPut == nPut
      ensures |old(memory)| <= |memory|
      ensures forall i :: 0 <= i < |old(memory)| && i + offset != nPut ==> memory[i] == old(memory)[i]
      ensures old(IsReadOnly()) ==> memory == old(memory)
      ensures error & old(error) == old(error)
    {
      if nPut > maxPut {
        var stored: seq<uint8> :| stored == memory ||
          (!IsReadOnly() && offset <= nPut < offset + |memory| && stored == memory[nPut - offset := 0]);
        memory := stored;
        maxPut := nPut;
      }
    }

    /**
     * `GetTypeBin` (no byte swapping): loads a `width`-byte integer at the get cursor and advances
     * the cursor past it; when the bytes are not there it yields 0 and the cursor stays.
     */
    method GetTypeBin(width: nat) returns (value: nat)
      requires Valid() && 1 <= width <= 8
      modifies this`getIndex, this`error
      ensures Valid()
      ensures value < Pow256(width)
      ensures getIndex == old(getIndex) + width || (getIndex == old(getIndex) && value == 0)
      ensures getIndex == old(getIndex) + width ==>
        old(GetWindow(width)) && value == FromLittleEndian(memory[old(getIndex) - offset .. getIndex - offset])
      ensures error & old(error) == old(error)
    {
      var ok := CheckGet(width);
      if ok {
        var at := getIndex - offset;
        value := FromLittleEndian(memory[at .. at + width]);
        getIndex := getIndex + width;
      } else {
        value := 0;
      }
    }

    /**
     * `PutTypeBin` (no byte swapping): stores `value` as `width` little-endian bytes at the put
     * cursor, advances the cursor past them and requests null termination; when there is no room
     * the cursor, the memory and the most ever put stay. Either way the attempt is logged.
     */
    method PutTypeBin(value: nat, width: nat)
      requires Valid() && 1 <= width <= 8 && value < Pow256(width)
      modifies this`memory, this`putIndex, this`error, this`maxPut, this`puts
      ensures Valid()
      ensures puts == old(puts) + [LittleEndian(value, width)]
      ensures putIndex == old(putIndex) + width || putIndex == old(putIndex)
      ensures putIndex == old(putIndex) + width ==>
        offset <= old(putIndex) && putIndex - offset <= |memory| &&
        memory[old(putIndex) - offset .. putIndex - offset] == LittleEndian(value, width) &&
        putIndex <= maxPut
      ensures putIndex == old(putIndex) + width ==>
        maxPut == (if old(maxPut) < putIndex then putIndex else old(maxPut))
      ensures putIndex == old(putIndex) ==> memory == old(memory) && maxPut == old(maxPut)
      ensures |old(memory)| <= |memory|
      ensures putIndex == old(putIndex) + width ==>
        forall i :: 0 <= i < |old(memory)| && (i + offset < old(putIndex) || putIndex < i + offset) ==>
          memory[i] == old(memory)[i]
      ensures error & old(error) == old(error)
    {
      var ok := CheckPut(width);
      if ok {
        var at := putIndex - offset;
        memory := Splice(memory, at, LittleEndian(value, width));
        putIndex := putIndex + width;
        ghost var written := memory;
        AddNullTermination(putIndex);
        assert memory[at .. at + width] == written[at .. at + width];
      }
      puts := puts + [LittleEndian(value, width)];
    }

    /** `PushTab`: one level deeper. */
    method PushTab()
      requires Valid() && tab < INT_MAX
      modifies this`tab
      ensures Valid()
      ensures tab == old(tab) + 1
    {
      tab := tab + 1;
    }

    /** A push followed by a pop restores any depth that is not negative. */
    method PushThenPop()
      requires Valid() && 0 <= tab < INT_MAX
      modifies this`tab
      ensures Valid()
      ensures tab == old(tab)
    {
      PushTab();
      PopTab();
    }

    /** `PopTab`: one level shallower, never below 0. */
    method PopTab()
      requires Valid() && tab > INT_MIN
      modifies this`tab
      ensures Valid()
      ensures tab >= 0
      ensures old(tab) >= 1 ==> tab == old(tab) - 1
      ensures old(tab) < 1 ==> tab == 0
    {
      tab := tab - 1;
      if tab < 0 {
        tab := 0;
      }
    }

    /** `EnableTabs`: sets `AUTO_TABS_DISABLED` exactly when tabs are disabled; no other flag moves. */
    method EnableTabs(enable: bool)
      requires Valid()
      modifies this`flags
      ensures Valid()
      ensures (flags & AUTO_TABS_DISABLED != 0) <==> !enable
      ensures flags & !AUTO_TABS_DISABLED == old(flags) & !AUTO_TABS_DISABLED
      ensures IsText() == old(IsText()) && IsGrowable() == old(IsGrowable())
      ensures IsReadOnly() == old(IsReadOnly()) && ContainsCRLF() == old(ContainsCRLF())
      ensures !enable ==> TabCount() == 0
      ensures enable && tab >= 0 ==> TabCount() == tab
    {
      if enable {
        flags := flags & !AUTO_TABS_DISABLED;
      } else {
        flags := flags | AUTO_TABS_DISABLED;
      }
    }

    /** The number of tabs `PutTabs` puts: the depth, or none while tabs are disabled. */
    function TabCount(): (n: nat)
      reads this
      ensures flags & AUTO_TABS_DISABLED != 0 ==> n == 0
      ensures flags & AUTO_TABS_DISABLED == 0 && tab >= 0 ==> n == tab
    {
      if flags & AUTO_TABS_DISABLED != 0 || tab < 0 then 0 else tab
    }

    /** `PutTabs`: one single-byte put of a tab per level, as `TabCount` says. */
    method PutTabs()
      requires Valid()
      modifies this`memory, this`putIndex, this`error, this`maxPut, this`puts
      ensures Valid()
      ensures puts == old(puts) + seq(old(TabCount()), _ => [TAB])
    {
      var tabCount := if flags & AUTO_TABS_DISABLED != 0 then 0 else tab;
      var i := tabCount - 1;
      while i >= 0
        invariant Valid() && flags == old(flags) && tab == old(tab)
        invariant i < tabCount && (i >= -1 || i == tabCount - 1)
        invariant puts == old(puts) + seq(tabCount - 1 - i, _ => [TAB])
        decreases i
      {
        PutTypeBin(TAB as nat, 1);
        assert LittleEndian(TAB as nat, 1) == [TAB];
        i := i - 1;
      }
    }

    /** `Clear`: both cursors, the error and the offset back to 0, no limit on reading; the memory stays. */
    method Clear()
      requires Valid()
      modifies this`getIndex, this`putIndex, this`error, this`offset, this`maxPut, this`memory
      ensures Valid()
      ensures getIndex == 0 && putIndex == 0 && offset == 0 && error == 0 && maxPut == SIZE_MAX
      ensures memory == old(memory)
      ensures IsValid()
    {
      getIndex := 0;
      putIndex := 0;
      error := 0;
      offset := 0;
      maxPut := SIZE_MAX;
      AddNullTermination(putIndex);
    }

    /** `Purge`: both cursors, the limit, the offset and the error to 0, and the memory released. */
    method Purge()
      requires Valid()
      modifies this`getIndex, this`putIndex, this`error, this`offset, this`maxPut, this`memory
      ensures Valid()
      ensures getIndex == 0 && putIndex == 0 && offset == 0 && maxPut == 0 && error == 0
      ensures memory == []
      ensures IsValid() && GetBytesRemaining() == 0
    {
      getIndex := 0;
      putIndex := 0;
      offset := 0;
      maxPut := 0;
      error := 0;
      memory := [];
    }
  }
}
